=== FILE: README.md ===
# Career guidance chatbot: a Dafny model of the backend handlers and the client session

The application lets a Class 10 student register with a short profile and then
talk to a career-counselling chat bot. This project models its core:

- the **Student schema's required-field rule** (`backend/models/Student.js`):
  which registration bodies validate and which fields they report missing;
- the **four HTTP handlers** of `backend/index.js` (register, get a student,
  chat, save a transcript) as pure functions from an abstract document store
  and a request to the new store and the response, with status codes and
  body shapes exactly as the handlers send them;
- the **reply pipeline** of the chat handler (`backend/index.js` lines
  72-80): the choice between the model's content and the fixed fallback, the
  three global regular-expression deletions applied in order, and `trim`;
- the **browser client's session state machine** (`frontend/src/App.jsx`
  lines 59-161 and the close button at line 279): signup, sending a message,
  the reply arriving, saving the transcript, opening the chat from a
  suggested prompt, the toggle button and the close button;
- the **composition** of the two sides: what the student sees after a
  registration and a conversation turn, and what the store holds after a save.

Modules, one file each:

| module | file | contents |
|---|---|---|
| `Optional` | `optional.dfy` | `Option` |
| `Text` | `text.dfy` | ECMAScript whitespace, `trim`, the subsequence order |
| `Records` | `records.dfy` | Student, Chat, message and request records; the required-field rule |
| `Replies` | `replies.dfy` | the fixed reply texts |
| `Sanitizer` | `sanitizer.dfy` | the chat reply pipeline |
| `SanitizerLaws` | `sanitizer_laws.dfy` | properties of the pipeline |
| `SanitizerExamples` | `sanitizer_examples.dfy` | the pipeline on concrete replies |
| `Server` | `server.dfy` | the four handlers over an abstract store |
| `Client` | `client.dfy` | the client session, its handlers and its invariant |
| `EndToEnd` | `end_to_end.dfy` | client and server composed |

### Modelling decisions

- **The store** is two sequences, students and chats. Whether a store call
  throws is a parameter (`Db = Up | Down`). A student's id is its position in
  the collection. This stands in for the store's ObjectId allocation: every
  registration gets an id no earlier student holds. `Server.IdsAreIndices`
  is the invariant that both writing handlers keep.
- **An id in a request path or body** is either well-formed, missing, or a
  value that does not cast to an id. A failed cast is the error path: 404 for
  the lookup and 400 for the save.
- **The `messages` of a save** are missing (stored as an empty array), a list
  of turns, or a value that does not cast to the Chat schema's array of
  `{role, content}` subdocuments (`Records.MessageList`). A failed cast
  answers 400, like a failed id cast. `role` is a plain string in the schema,
  so any role text is stored (`Records.Role`).
- **`required: true`** on a string path fails when the value is absent, null
  or the empty string (`Records.Present`). Whitespace-only strings pass.
- **The first regular expression** `/<s>\s*\[OUT\]\s*/g` is modelled exactly.
  The first `\s*` is followed by `[`, which is not whitespace, so only its
  maximal run can lead to a match. The second `\s*` is the last part of the
  pattern and is greedy, so it takes its maximal run. `\s` and `trim` share
  one whitespace set: the ECMAScript WhiteSpace and LineTerminator code points
  (`Text.IsWhitespace`).
- **The third regular expression** `/[/OUT]/g` is a character class. It
  deletes every `/`, `O`, `U` and `T` anywhere in the reply. It does not
  delete only the fragment `/OUT]` (`SanitizerExamples.FragmentExample`). So
  the reply "Try engineering." comes back as "ry engineering."
  (`SanitizerExamples.EngineeringExample`). The second replacement is a
  single pass, so the pipeline is not idempotent
  (`SanitizerExamples.NotIdempotent`).
- **GET of a well-formed but unknown id** answers 200 with `student: null`,
  because `findById` resolves to `null` rather than throwing. Only a cast
  failure or a store fault answers 404.
- **A failed chat call** answers status 500 with `{response: <apology>}`. A
  chat request without `studentData` fails the same way, because building the
  prompt reads `studentData.name`.
- **The client** sees a non-2xx status as a thrown call. It then shows its
  own apology, which differs from the server's 500 text
  (`EndToEnd.ConversationTurn`).
- **Each client handler runs to completion** before the next event, but the
  asynchronous parts are events of their own. A send appends the user turn and
  puts a chat call in flight; later that call's outcome arrives
  (`Client.SendMessage`, `Client.ReplyArrived`). A suggested prompt opens the
  chat and schedules a send; 500 ms later the oldest scheduled send runs
  (`Client.OpenWithPrompt`, `Client.PromptFired`). A session is a sequence of
  events (`Client.Run`). An event whose control is not rendered, or whose
  callback is not pending, has no effect (`Client.Enabled`). Registration is
  the exception: it is one call at a time, whose answer arrives while the
  signup page is still shown.
- **A late callback writes what its closure saw.** The reply handler sets
  the transcript its own send produced plus the answer, whatever happened in
  between. Nothing disables the chat form while loading. So a second message
  sent before the first answer loses a turn: the first answer is shown after
  the first message only, and the second answer brings back the second
  message without the first answer (`Client.OverlappingSendsLoseTurn`).
  Loading also ends with the first answer while the second call is still out.
  The delayed send of a suggested prompt runs the handler from the render
  where the prompt was clicked, which held the transcript from before the
  greeting. On an empty chat, the greeting is shown and then replaced by the
  prompt (`Client.PromptReplacesGreeting`). The transcript only grows when the
  user waits for each answer and chooses a prompt only on a started
  conversation (`Client.RunOnlyAppends`).

## Model

| member | source | states |
|---|---|---|
| Records.MissingFields | backend/models/Student.js:2-6 | each of the four required fields is reported exactly when its value is absent or empty; the list is empty exactly when all four are present |
| Records.FailedPaths | backend/models/Student.js:2-7 | validation fails on the missing required fields and, when it does not cast to a Date, on `createdAt`; the list is empty exactly when the body validates |
| Records.NewStudent | backend/models/Student.js:2-7 | a validated body becomes a document carrying the submitted field values unchanged; `createdAt` is the given date, and defaults to the current time only when the body does not give one |
| Replies.NoContentReplyChars | backend/index.js:74 | the fallback reply contains no `<`, `/`, `O`, `U` or `T`, starts with `S` and ends with `.` |
| Text.Trim | backend/index.js:80 | `trim` returns a slice of its input; everything cut off before and after the slice is whitespace, and the slice has no whitespace at either edge, which fixes the result uniquely |
| Text.TrimIsSubsequence | backend/index.js:80 | `trim` only deletes characters |
| Text.TrimEmptyIffAllWhitespace | frontend/src/App.jsx:94 | `trim` yields the empty string exactly when every character is whitespace, which is when the send handler returns early |
| Text.TrimIdentity | backend/index.js:80 | a string with no whitespace at either edge is left unchanged by `trim` |
| Text.TrimIdempotent | backend/index.js:80 | trimming twice is the same as trimming once |
| Sanitizer.ChooseReply | backend/index.js:72-74 | the reply is never empty; it is the model's content when that is a non-empty string, and otherwise the fixed fallback |
| Sanitizer.MarkerEnd | backend/index.js:77 | a match of the marker pattern starts with `<` and spans at least the eight characters of `<s>[OUT]` |
| SanitizerLaws.MarkerMatchIsMarker | backend/index.js:77 | a match is exactly `<s>`, a whitespace run, `[OUT]` and a whitespace run, and it stops before a non-whitespace character, so only marker text is removed |
| Sanitizer.StripMarker | backend/index.js:77 | the first replacement never lengthens the reply; `StripMarkerDeletes`, `MarkerRemovedAnywhere` and `MarkerMatchIsMarker` state what it removes |
| Sanitizer.StripSOut | backend/index.js:78 | the second replacement never lengthens the reply; `StripSOutDeletes` and `SOutRemovedAnywhere` state what it removes |
| SanitizerLaws.MarkerPrefixRemoved | backend/index.js:77 | a leading `<s>`, any whitespace run, `[OUT]` and any whitespace run are removed together, and the rest of the reply is processed as if they were never there |
| SanitizerLaws.MarkerRemovedAnywhere | backend/index.js:77 | a marker occurrence anywhere in the reply is removed as a whole, and the text before it and the text after it are processed as if each stood alone |
| SanitizerLaws.StripMarkerAppend | backend/index.js:77 | no match of the marker pattern spans a `<`, so the first replacement processes the text before a `<` and the text from that `<` on independently |
| SanitizerLaws.SOutRemovedAnywhere | backend/index.js:78 | every `s<out>` the single pass reaches is removed, and the text before it and the text after it are processed as if each stood alone |
| SanitizerLaws.StripSOutAppend | backend/index.js:78 | no match of `s<out>` spans an `s` other than its first character, so the second replacement processes the text before an `s` and the text from that `s` on independently |
| SanitizerLaws.StripMarkerFixes | backend/index.js:77 | a reply in which no `<` is followed by `s` passes through the first replacement unchanged |
| SanitizerLaws.StripMarkerDeletes | backend/index.js:77 | the first replacement only deletes characters |
| SanitizerLaws.StripSOutDeletes | backend/index.js:78 | the `s<out>` replacement only deletes characters |
| Sanitizer.DropClass | backend/index.js:79 | after the character-class replacement no `/`, `O`, `U` or `T` is left, and the text is never longer |
| SanitizerLaws.DropClassKeepsOthers | backend/index.js:79 | every character outside the class is kept, as many times as it occurs |
| SanitizerLaws.DropClassSkipsRun | backend/index.js:79 | a run of class characters is deleted as a whole, whatever its length |
| SanitizerLaws.DropClassDeletes | backend/index.js:79 | the character-class replacement only deletes characters |
| SanitizerLaws.CleanDeletes | backend/index.js:76-80 | the cleaned reply is obtained from the chosen reply by deletions alone, so it is never longer |
| SanitizerLaws.CleanShape | backend/index.js:76-80 | the cleaned reply has no `/`, `O`, `U` or `T`, has no whitespace at either end, and never contains the marker `[OUT]` |
| SanitizerLaws.CleanIdentity | backend/index.js:76-80 | a reply with no `<`, no class character and no edge whitespace comes back unchanged |
| SanitizerLaws.NoContentYieldsFallback | backend/index.js:72-80 | missing or empty content is answered with exactly the fallback text |
| Sanitizer.Clean | backend/index.js:76-80 | the cleaned reply is no longer than the reply and holds no `/`, `O`, `U` or `T`; `CleanDeletes`, `CleanShape` and `CleanIdentity` state the rest |
| Sanitizer.Sanitize | backend/index.js:72-80 | the answer is no longer than the chosen reply and holds no class character; `NoContentYieldsFallback` gives the fallback case |
| SanitizerExamples.LeadingMarkerExample | backend/index.js:76-80 | `<s>[OUT] Hello there` is answered as `Hello there` |
| SanitizerExamples.UnclosedExample | backend/index.js:77 | `<s> hi` passes through the first replacement unchanged: an opening tag without `[OUT]` is not removed |
| SanitizerExamples.TourExample | backend/index.js:79-80 | `TOUR` is answered as `R`: the class deletes ordinary capital letters |
| SanitizerExamples.FragmentExample | backend/index.js:79 | `a/OUT]b` becomes `a]b`: the closing bracket survives, so the fragment `/OUT]` is not removed as a unit |
| SanitizerExamples.EngineeringExample | backend/index.js:76-80 | the reply `Try engineering.` is answered as `ry engineering.` |
| SanitizerExamples.NotIdempotent | backend/index.js:76-80 | `ss<out><out>` is answered as `s<out>`, and cleaning that again gives the empty string, so cleaning twice differs from cleaning once |
| Server.RegisterStudent | backend/index.js:23-32 | 201 exactly for a valid body (required fields present, `createdAt` castable or absent) with a working store, and then exactly one student is appended, with a fresh id, the submitted fields, and `createdAt` set to the submitted date or, when none was sent, to `now` (the `Date.now` default); otherwise 400 with `success: false`, the failing paths named when validation failed, and the store unchanged |
| Server.Find | backend/index.js:37 | a found student is in the collection and has the requested id; `null` means no student has that id |
| Server.GetStudent | backend/index.js:35-42 | 404 with "Student not found" exactly for an id that does not cast or a store fault; otherwise 200 with the student of that id, or `null` when there is none |
| Server.ChatReply | backend/index.js:44-89 | 200 exactly when the body carries `studentData` and the completion call returns; otherwise exactly 500 with the fixed apology; the body never has a `success` field |
| Server.SaveChat | backend/index.js:95-104 | 200 exactly when `studentId` and `messages` are castable or missing and the store works; then one new Chat document holding the given turns (none when `messages` is missing) is appended and nothing earlier changes; otherwise 400 and the store is unchanged |
| Server.HandlersKeepIds | backend/index.js:23-32 | registering and saving both keep every student's id equal to its position |
| Server.RegisterAssignsFreshId | backend/index.js:26-28 | a newly registered student's id differs from every earlier student's |
| Server.FindByPosition | backend/index.js:37 | under the id invariant, a lookup returns exactly the student at that position, and `null` past the end |
| Server.RegisterThenLookup | backend/index.js:23-42 | the record registration answers with is returned unchanged by a lookup of its id |
| Server.SavesAccumulate | backend/index.js:95-104 | two saves keep two separate documents, in order, after everything saved earlier; no document is ever updated |
| Server.ChatReplyShape | backend/index.js:72-82 | a successful chat answer is obtained from the chosen reply by deletions, has no class character and no edge whitespace, and is the fallback when the content is missing |
| Client.PromptGreeting | frontend/src/App.jsx:138 | the prompt greeting ends with "Let's get started!" |
| Client.ToggleGreeting | frontend/src/App.jsx:155 | the toggle greeting ends with "How can I help you today?" |
| Client.SignupDone | frontend/src/App.jsx:59-77 | a successful registration moves to the landing page holding the returned record; a failed one changes nothing |
| Client.SaveRequestFor | frontend/src/App.jsx:80-90 | no save is sent without a student; otherwise the save carries the student's id and the whole transcript |
| Client.SendMessage | frontend/src/App.jsx:93-100 | a message that trims to nothing changes nothing and sends nothing; otherwise the transcript becomes the one the handler's render saw plus the untrimmed text as a user turn, the input is cleared, loading starts, the text is sent with the student, and the call is put in flight with that transcript |
| Client.ReplyArrived | frontend/src/App.jsx:102-128 | the transcript becomes the one that call's send produced plus one assistant turn (the answer, or the client's apology on failure), whatever happened in between; the call leaves the in-flight list; loading ends even if other calls are out; and that whole transcript is saved |
| Client.OpenWithPrompt | frontend/src/App.jsx:132-144 | the chat opens; the prompt greeting is inserted only when the transcript is empty; the prompt's send is scheduled with the transcript from before the greeting; nothing else changes |
| Client.PromptFired | frontend/src/App.jsx:142-144 | the oldest scheduled send runs: on success the transcript becomes the scheduled transcript plus the prompt as a user turn; the request carries the prompt and the student, the input is cleared, loading starts and the call goes in flight; a blank prompt sends nothing; the timer is consumed either way, and nothing else (visibility, page, student) changes |
| Client.Toggle | frontend/src/App.jsx:148-161 | the chat's visibility flips; the transcript changes exactly when the chat is being opened, is empty and a student is set, and then holds only the toggle greeting |
| Client.Close | frontend/src/App.jsx:279 | the close button hides the chat and changes nothing else |
| Client.Type | frontend/src/App.jsx:313 | typing replaces the input text and changes nothing else |
| Client.Apply | frontend/src/App.jsx:59-161 | every handler keeps the session invariant, and only the signup handler changes the page or the student |
| Client.Run | frontend/src/App.jsx:59-161 | every session keeps the invariant (a student exactly on the landing page, nothing chat-related before signup, while loading a call is out and the last turn is the user's, every in-flight transcript ends with its user turn), and the landing page and its student are never left |
| Client.StepTranscript | frontend/src/App.jsx:93-161 | a click, a submit or a keystroke only adds turns at the end; a reply sets its send's transcript plus the answer; a prompt's delayed send sets the scheduled transcript plus the prompt |
| Client.PatientStepOnlyAppends | frontend/src/App.jsx:93-161 | when the user waits for each answer and chooses a prompt only on a started conversation, every event keeps at most one callback pending, starting from the current transcript, and only adds turns |
| Client.RunOnlyAppends | frontend/src/App.jsx:93-161 | over such a patient session the transcript only grows at its end |
| Client.OverlappingSendsLoseTurn | frontend/src/App.jsx:93-128 | two messages sent before the first answer: the first answer follows the first message only and ends loading with a call still out; the second answer then follows the second message and the first answer is gone |
| Client.PromptReplacesGreeting | frontend/src/App.jsx:132-144 | a prompt chosen on an empty chat shows the greeting, and the delayed send then replaces it with the prompt |
| Client.SendThenReply | frontend/src/App.jsx:93-128 | a full send adds exactly the user turn and one assistant turn, leaves no call over, ends loading, clears the input and saves the whole transcript |
| Client.ClosingKeepsTranscript | frontend/src/App.jsx:279 | closing the chat, with the header button or the toggle, never changes the transcript |
| Client.GreetsOnce | frontend/src/App.jsx:148-161 | opening, closing and reopening the chat greets only once |
| Client.PromptOnStartedChat | frontend/src/App.jsx:132-144 | on a started conversation a suggested prompt opens the chat and schedules its send, leaving the transcript as it is |
| Client.SignupOutcomes | frontend/src/App.jsx:59-77 | from the initial state the landing page is reached exactly when registration returns a student |
| EndToEnd.ObserveChat | frontend/src/App.jsx:102-126 | the client takes a 2xx chat response as an answer carrying the response text, and any other status as a failed call |
| EndToEnd.ObserveRegister | frontend/src/App.jsx:69-76 | the client takes a record from the register call exactly from a 2xx response whose body holds one, and then it is that record; any other status yields none |
| EndToEnd.RegisterAnswerCarriesStudent | backend/index.js:23-32 | the register handler's only 2xx answer is 201, and it always holds a student, so the client takes a record exactly from a 201 answer |
| EndToEnd.SignupRoundTrip | frontend/src/App.jsx:59-77 | a valid form leads to the landing page holding the record that the store appended; an invalid form leaves the client on the signup page and the store unchanged |
| EndToEnd.ConversationTurn | frontend/src/App.jsx:93-128 | one turn adds the user turn and one assistant turn; with a student set and a completion, the assistant turn is the cleaned content; otherwise it is the client's apology, never the server's 500 text |
| EndToEnd.SaveRoundTrip | frontend/src/App.jsx:80-90 | the save issued after a reply stores a new Chat document with the student's id and the whole transcript, and leaves the students unchanged |

## Left out

- Express setup, CORS, JSON body parsing, environment variables, the listen port and the database connection (backend/index.js lines 1-18 and 106-108): configuration with no logic.
- The request to the completion service (backend/index.js lines 48-70): the prompt text, the model name and the credential. The service's answer is the parameter `Upstream`: it either fails or returns a content that may be missing.
- Server.ChatReply: content that is present but not a string (a number or an object) is not modelled. The content is a string or missing, as the completion service returns it.
- Server.ChatReply: a missing `message` field is not modelled. It only feeds the prompt text, which is left out.
- Server.SaveChat: which JSON values fail to cast to the `messages` array is abstracted as `Uncastable`; a turn missing its `role` or `content` is not modelled, and turns are stored as sent.
- Records.NewStudent: Mongoose's casting of non-string values to strings and its dropping of unknown fields are not modelled. A body supplying its own `_id` is not modelled either. The four text fields are strings or absent; `createdAt` is absent, a date, or a value that does not cast, and which values cast to a Date is abstracted (`Records.DateField`).
- Server.GetStudent: a store fault is merged with a cast failure, because both reach the same catch block. Which values cast to an ObjectId is abstracted as an `Option` id.
- The per-message `timestamp` default of the Chat schema (backend/models/chat.js line 7): a clock value with no logic.
- Client.OpenWithPrompt: requires a student when the transcript is empty. The source would throw on `studentData.name` without one, but the prompt buttons are only rendered on the landing page, where a student is always set (`Client.Wellformed`).
- The 500 ms delay itself and any ordering between timers and network answers beyond "oldest timer first": the clock is left out, and a timer or an answer may fire at any point of a session.
- Client.SignupDone: overlapping registrations are not modelled. Nothing stops a second submit before the first answer; both requests then append a student, and a later answer replaces the student on the landing page (frontend/src/App.jsx line 71). The model has one register call at a time, so the landing page and its student are never left (`Client.Run`).
- Client.PromptFired: the stale `studentData` a delayed send or a reply's `saveChat` could see is not modelled apart from the transcript. It differs from the current student only after the overlapping registrations left out above.
- Rendering, window-resize tracking, scrolling, the loading indicator and the blocking alert on signup failure (frontend/src/App.jsx lines 21-57 and 163-331, apart from the handlers modelled above): presentation only.
- Console logging of errors, on both sides: no effect on state.

=== FILE: client.dfy ===
/** The browser client's session state and its event handlers. Each handler
    runs to completion, but a send is split into the moment the user turn is
    appended and the moment the chat call's outcome arrives, and a suggested
    prompt into the click and the delayed send. Between those moments other
    events may run. What a late handler writes is what its closure saw. */
module Client {
  import opened Optional
  import opened Text
  import opened Records
  import opened Replies

  datatype Page = SignupPage | LandingPage

  /** A suggested prompt waiting for its delayed send, with the transcript
      the click's render held. */
  datatype Timer = Timer(seen: seq<Message>, prompt: string)

  /** `studentData` is kept as `student`; `messages` as `transcript`.
      `inFlight` holds, for each chat call not yet finished, the transcript
      its send produced; `timers` the scheduled prompt sends, oldest first. */
  datatype State = State(
    page: Page,
    student: Option<Student>,
    isOpen: bool,
    transcript: seq<Message>,
    input: string,
    isLoading: bool,
    inFlight: seq<seq<Message>>,
    timers: seq<Timer>)

  const Initial: State := State(SignupPage, None, false, [], "", false, [], [])

  const Wave: string := "\U{1F44B}"
  const Introduction: string := " I'm your career guidance assistant. "
  const InterestLead: string := "I see you're interested in "
  const PromptClosing: string := "Let's get started!"
  const ToggleClosing: string := "How can I help you today?"

  /** Greeting inserted when the chat is opened from a suggested prompt. */
  function PromptGreeting(s: Student): (g: string)
    ensures |g| >= |PromptClosing| && g[|g| - |PromptClosing|..] == PromptClosing
  {
    var head := "Hello " + s.name + "! " + Wave + Introduction + InterestLead + s.interests + ". ";
    var g := head + PromptClosing;
    assert g[|head|..] == PromptClosing;
    g
  }

  /** Greeting inserted when the chat is opened with the floating button. */
  function ToggleGreeting(s: Student): (g: string)
    ensures |g| >= |ToggleClosing| && g[|g| - |ToggleClosing|..] == ToggleClosing
  {
    var head := "Hello " + s.name + "! " + Wave + Introduction;
    var g := head + ToggleClosing;
    assert g[|head|..] == ToggleClosing;
    g
  }

  // ---------------------------------------------------------------------
  // handleSignup
  // ---------------------------------------------------------------------

  /** `registered` is the student the register call answered with, or `None`
      when the call threw (the user then sees an alert). */
  function SignupDone(s: State, registered: Option<Student>): (t: State)
    ensures registered.Some? ==> t.page == LandingPage && t.student == registered
    ensures registered.None? ==> t == s
    ensures t.(page := s.page, student := s.student) == s
  {
    if registered.Some? then s.(student := registered, page := LandingPage) else s
  }

  // ---------------------------------------------------------------------
  // saveChat
  // ---------------------------------------------------------------------

  /** The save request sent after a reply, if any: none without a student,
      otherwise the whole transcript under the student's id. Its outcome is
      only logged, so it has no effect on the state. */
  function SaveRequestFor(student: Option<Student>, transcript: seq<Message>): (r: Option<SaveRequest>)
    ensures r.None? <==> student.None?
    ensures r.Some? ==> r.value.studentId == Ref(student.value.id) && r.value.messages == Turns(transcript)
  {
    match student
    case None => None
    case Some(s) => Some(SaveRequest(Ref(s.id), Turns(transcript)))
  }

  // ---------------------------------------------------------------------
  // handleSendMessage
  // ---------------------------------------------------------------------

  /** The state after the user turn is appended, and the chat request sent. */
  datatype Sent = Sent(state: State, request: Option<ChatRequest>)

  /** The send handler as it runs from a render whose `messages` was `seen`.
      A message that `trim` empties changes nothing and sends nothing.
      Otherwise the transcript becomes `seen` plus the untrimmed text as a
      user turn, the input box is cleared, loading starts, and the call goes
      out with the student, remembering the transcript it produced. */
  function SendMessage(s: State, seen: seq<Message>, text: string): (out: Sent)
    ensures out.request.None? <==> AllWhitespace(text)
    ensures out.request.None? ==> out.state == s
    ensures out.request.Some? ==>
      && out.request.value == ChatRequest(text, s.student)
      && out.state.transcript == seen + [Message(User, text)]
      && out.state.inFlight == s.inFlight + [out.state.transcript]
      && out.state.input == []
      && out.state.isLoading
      && out.state.(transcript := s.transcript, input := s.input, isLoading := s.isLoading, inFlight := s.inFlight) == s
  {
    TrimEmptyIffAllWhitespace(text);
    if Trim(text) == [] then Sent(s, None)
    else
      var transcript := seen + [Message(User, text)];
      Sent(s.(transcript := transcript, input := "", isLoading := true, inFlight := s.inFlight + [transcript]),
           Some(ChatRequest(text, s.student)))
  }

  /** How the chat call ended, as the client sees it. */
  datatype ChatOutcome = Answered(response: string) | CallFailed

  /** The assistant turn the client shows for an outcome. */
  function AssistantText(outcome: ChatOutcome): string {
    match outcome
    case Answered(text) => text
    case CallFailed => ClientErrorReply
  }

  /** The state after the outcome arrived, and the save request issued. */
  datatype Replied = Replied(state: State, save: Option<SaveRequest>)

  /** The outcome of the in-flight call `call` arrives. The transcript
      becomes the one that call's send produced plus one assistant turn,
      whatever happened in between; loading ends even if other calls are
      still out; and the whole new transcript is handed to `saveChat`. */
  function ReplyArrived(s: State, call: nat, outcome: ChatOutcome): (out: Replied)
    requires call < |s.inFlight|
    ensures out.state.transcript == s.inFlight[call] + [Message(Assistant, AssistantText(outcome))]
    ensures out.state.inFlight == s.inFlight[..call] + s.inFlight[call + 1..]
    ensures !out.state.isLoading
    ensures out.save == SaveRequestFor(s.student, out.state.transcript)
    ensures out.state.(transcript := s.transcript, isLoading := s.isLoading, inFlight := s.inFlight) == s
  {
    var transcript := s.inFlight[call] + [Message(Assistant, AssistantText(outcome))];
    Replied(s.(transcript := transcript, isLoading := false, inFlight := s.inFlight[..call] + s.inFlight[call + 1..]),
            SaveRequestFor(s.student, transcript))
  }

  // ---------------------------------------------------------------------
  // openChatWithPrompt, toggleChat, the close button, the input box
  // ---------------------------------------------------------------------

  /** Opens the chat, inserts the prompt greeting only when the transcript is
      empty, and schedules the prompt's send with the transcript as this
      render holds it, that is, without the greeting. The greeting reads the
      student's name, so the source requires a student whenever the
      transcript is empty. */
  function OpenWithPrompt(s: State, prompt: string): (t: State)
    requires s.transcript == [] ==> s.student.Some?
    ensures t.isOpen
    ensures s.transcript != [] ==> t.transcript == s.transcript
    ensures s.transcript == [] ==> t.transcript == [Message(Assistant, PromptGreeting(s.student.value))]
    ensures t.timers == s.timers + [Timer(s.transcript, prompt)]
    ensures t.(isOpen := s.isOpen, transcript := s.transcript, timers := s.timers) == s
  {
    var timers := s.timers + [Timer(s.transcript, prompt)];
    if s.transcript == [] then
      s.(isOpen := true, transcript := [Message(Assistant, PromptGreeting(s.student.value))], timers := timers)
    else s.(isOpen := true, timers := timers)
  }

  /** The prompt's delayed send: the oldest timer runs the send handler from
      the render that scheduled it. */
  function PromptFired(s: State): (out: Sent)
    requires |s.timers| > 0
    ensures out.request.None? <==> AllWhitespace(s.timers[0].prompt)
    ensures out.request.Some? ==>
      && out.request.value == ChatRequest(s.timers[0].prompt, s.student)
      && out.state.transcript == s.timers[0].seen + [Message(User, s.timers[0].prompt)]
      && out.state.input == []
      && out.state.isLoading
      && out.state.inFlight == s.inFlight + [out.state.transcript]
      && out.state.(transcript := s.transcript, input := s.input, isLoading := s.isLoading, inFlight := s.inFlight, timers := s.timers) == s
    ensures out.request.None? ==> out.state == s.(timers := s.timers[1..])
    ensures out.state.timers == s.timers[1..]
  {
    SendMessage(s.(timers := s.timers[1..]), s.timers[0].seen, s.timers[0].prompt)
  }

  /** Flips `isOpen`; inserts the toggle greeting only when this opens the
      chat, the transcript is empty and a student is set. */
  function Toggle(s: State): (t: State)
    ensures t.isOpen == !s.isOpen
    ensures t.transcript != s.transcript <==> !s.isOpen && s.transcript == [] && s.student.Some?
    ensures t.transcript != s.transcript ==> t.transcript == [Message(Assistant, ToggleGreeting(s.student.value))]
    ensures t.(isOpen := s.isOpen, transcript := s.transcript) == s
  {
    var opening := !s.isOpen;
    if opening && s.transcript == [] && s.student.Some? then
      s.(isOpen := true, transcript := [Message(Assistant, ToggleGreeting(s.student.value))])
    else s.(isOpen := opening)
  }

  /** The close button in the chat header. */
  function Close(s: State): (t: State)
    ensures !t.isOpen && t.(isOpen := s.isOpen) == s
  {
    s.(isOpen := false)
  }

  /** Typing into the chat input. */
  function Type(s: State, text: string): (t: State)
    ensures t.input == text && t.(input := s.input) == s
  {
    s.(input := text)
  }

  // ---------------------------------------------------------------------
  // Sessions: the events the rendered page offers, and late callbacks
  // ---------------------------------------------------------------------

  datatype Event =
    | SignupAnswered(registered: Option<Student>)  // the register call finished
    | Typed(text: string)                          // the chat input changed
    | Submitted                                    // the chat form was submitted
    | PromptChosen(prompt: string)                 // a suggested prompt was clicked
    | PromptTimerFired                             // the oldest scheduled prompt send runs
    | ChatAnswered(call: nat, outcome: ChatOutcome)  // in-flight chat call `call` finished
    | ToggleClicked                                // the floating chat button
    | CloseClicked                                 // the close button in the chat header

  /** Whether the event can happen: its control is rendered, or the callback
      behind it is pending. Nothing disables the form while loading. */
  predicate Enabled(s: State, e: Event) {
    match e
    case SignupAnswered(_) => s.page.SignupPage?
    case Typed(_) => s.page.LandingPage? && s.isOpen
    case Submitted => s.page.LandingPage? && s.isOpen
    case PromptChosen(_) => s.page.LandingPage?
    case PromptTimerFired => |s.timers| > 0
    case ChatAnswered(call, _) => call < |s.inFlight|
    case ToggleClicked => s.page.LandingPage?
    case CloseClicked => s.page.LandingPage? && s.isOpen
  }

  predicate EndsWithUser(t: seq<Message>) {
    |t| > 0 && t[|t| - 1].role == User
  }

  /** The session invariant: a student exactly on the landing page; nothing
      chat-related before it; while loading, a call is out and the last turn
      is the user's; every in-flight call's transcript ends with its user
      turn. */
  predicate Wellformed(s: State) {
    && (s.page.LandingPage? <==> s.student.Some?)
    && (s.page.SignupPage? ==>
          !s.isOpen && s.transcript == [] && s.input == [] && !s.isLoading && s.inFlight == [] && s.timers == [])
    && (s.isLoading ==> |s.inFlight| > 0 && EndsWithUser(s.transcript))
    && (forall k :: 0 <= k < |s.inFlight| ==> EndsWithUser(s.inFlight[k]))
  }

  /** One handler run to completion. */
  function Apply(s: State, e: Event): (t: State)
    requires Wellformed(s) && Enabled(s, e)
    ensures Wellformed(t)
    ensures !e.SignupAnswered? ==> t.page == s.page && t.student == s.student
  {
    match e
    case SignupAnswered(r) => SignupDone(s, r)
    case Typed(text) => Type(s, text)
    case Submitted => SendKeepsWellformed(s, s.transcript, s.input); SendMessage(s, s.transcript, s.input).state
    case PromptChosen(p) => OpenWithPrompt(s, p)
    case PromptTimerFired => FiredKeepsWellformed(s); PromptFired(s).state
    case ChatAnswered(call, o) => ReplyKeepsWellformed(s, call, o); ReplyArrived(s, call, o).state
    case ToggleClicked => Toggle(s)
    case CloseClicked => Close(s)
  }

  /** An event that cannot happen has no effect. */
  function Step(s: State, e: Event): (t: State)
    requires Wellformed(s)
    ensures Wellformed(t)
  {
    if Enabled(s, e) then Apply(s, e) else s
  }

  lemma SendKeepsWellformed(s: State, seen: seq<Message>, text: string)
    requires Wellformed(s) && s.page.LandingPage?
    ensures Wellformed(SendMessage(s, seen, text).state)
  {
    var t := SendMessage(s, seen, text).state;
    if !AllWhitespace(text) {
      assert forall k :: 0 <= k < |s.inFlight| ==> t.inFlight[k] == s.inFlight[k];
    }
  }

  lemma FiredKeepsWellformed(s: State)
    requires Wellformed(s) && |s.timers| > 0
    ensures Wellformed(PromptFired(s).state)
  {
    assert s.page.LandingPage?;
    SendKeepsWellformed(s.(timers := s.timers[1..]), s.timers[0].seen, s.timers[0].prompt);
  }

  lemma ReplyKeepsWellformed(s: State, call: nat, outcome: ChatOutcome)
    requires Wellformed(s) && call < |s.inFlight|
    ensures Wellformed(ReplyArrived(s, call, outcome).state)
  {
    var rest := s.inFlight[..call] + s.inFlight[call + 1..];
    forall k | 0 <= k < |rest| ensures EndsWithUser(rest[k]) {
      if k < call { assert rest[k] == s.inFlight[k]; } else { assert rest[k] == s.inFlight[k + 1]; }
    }
  }

  predicate IsPrefix(a: seq<Message>, b: seq<Message>) {
    |a| <= |b| && b[..|a|] == a
  }

  lemma PrefixTransitive(a: seq<Message>, b: seq<Message>, c: seq<Message>)
    requires IsPrefix(a, b) && IsPrefix(b, c)
    ensures IsPrefix(a, c)
  {
    assert c[..|a|] == c[..|b|][..|a|];
  }

  /** The state after a sequence of events, in order. */
  function Run(s: State, events: seq<Event>): (t: State)
    requires Wellformed(s)
    ensures Wellformed(t)
    ensures s.page.LandingPage? ==> t.page.LandingPage? && t.student == s.student
    decreases |events|
  {
    if |events| == 0 then s
    else Run(Step(s, events[0]), events[1..])
  }

  // ---------------------------------------------------------------------
  // What each event does to the transcript
  // ---------------------------------------------------------------------

  /** A click, a submit or a keystroke only ever adds turns at the end. The
      late callbacks write what their closure saw: a reply sets the transcript
      its send produced plus the answer, and a prompt's delayed send sets the
      transcript of the click's render plus the prompt. */
  lemma StepTranscript(s: State, e: Event)
    requires Wellformed(s)
    ensures !e.ChatAnswered? && !e.PromptTimerFired? ==> IsPrefix(s.transcript, Step(s, e).transcript)
    ensures e.ChatAnswered? && e.call < |s.inFlight| ==>
      Step(s, e).transcript == s.inFlight[e.call] + [Message(Assistant, AssistantText(e.outcome))]
    ensures e.PromptTimerFired? && |s.timers| > 0 && !AllWhitespace(s.timers[0].prompt) ==>
      Step(s, e).transcript == s.timers[0].seen + [Message(User, s.timers[0].prompt)]
  {
  }

  // ---------------------------------------------------------------------
  // A patient user never loses a turn
  // ---------------------------------------------------------------------

  /** The user waits: a message or a prompt goes out only when no chat call
      and no prompt send is pending, and a prompt is chosen only once the
      conversation has started. */
  predicate Patient(s: State, e: Event) {
    match e
    case Submitted => s.inFlight == [] && s.timers == []
    case PromptChosen(_) => s.inFlight == [] && s.timers == [] && s.transcript != []
    case _ => true
  }

  predicate PatientSession(s: State, events: seq<Event>)
    requires Wellformed(s)
    decreases |events|
  {
    |events| == 0 || (Patient(s, events[0]) && PatientSession(Step(s, events[0]), events[1..]))
  }

  /** At most one thing is pending, and what it will write back starts from
      the transcript as it stands. */
  predicate Calm(s: State) {
    && |s.inFlight| + |s.timers| <= 1
    && (forall k :: 0 <= k < |s.inFlight| ==> s.inFlight[k] == s.transcript)
    && (forall k :: 0 <= k < |s.timers| ==> s.timers[k].seen == s.transcript && s.transcript != [])
  }

  lemma InitialIsCalm()
    ensures Wellformed(Initial) && Calm(Initial)
  {
  }

  /** A patient event keeps the session calm and only adds turns. */
  lemma PatientStepOnlyAppends(s: State, e: Event)
    requires Wellformed(s) && Calm(s) && Patient(s, e)
    ensures Calm(Step(s, e))
    ensures IsPrefix(s.transcript, Step(s, e).transcript)
  {
    if Enabled(s, e) {
      match e
      case Submitted => CalmSend(s);
      case PromptChosen(p) => CalmPrompt(s, p);
      case PromptTimerFired => CalmFired(s);
      case ChatAnswered(call, o) => CalmReply(s, call, o);
      case ToggleClicked => CalmToggle(s);
      case SignupAnswered(r) => CalmUntouched(s, Step(s, e));
      case Typed(text) => CalmUntouched(s, Step(s, e));
      case CloseClicked => CalmUntouched(s, Step(s, e));
    }
  }

  lemma CalmUntouched(s: State, t: State)
    requires Calm(s) && t.transcript == s.transcript && t.inFlight == s.inFlight && t.timers == s.timers
    ensures Calm(t) && IsPrefix(s.transcript, t.transcript)
  {
  }

  lemma CalmSend(s: State)
    requires Wellformed(s) && Calm(s) && s.inFlight == [] && s.timers == []
    ensures var t := SendMessage(s, s.transcript, s.input).state;
      Calm(t) && IsPrefix(s.transcript, t.transcript)
  {
  }

  lemma CalmPrompt(s: State, prompt: string)
    requires Wellformed(s) && Calm(s) && s.inFlight == [] && s.timers == [] && s.transcript != []
    ensures var t := OpenWithPrompt(s, prompt);
      Calm(t) && IsPrefix(s.transcript, t.transcript)
  {
  }

  lemma CalmFired(s: State)
    requires Wellformed(s) && Calm(s) && |s.timers| > 0
    ensures var t := PromptFired(s).state;
      Calm(t) && IsPrefix(s.transcript, t.transcript)
  {
    assert s.inFlight == [];
    assert s.timers[0].seen == s.transcript;
  }

  lemma CalmReply(s: State, call: nat, outcome: ChatOutcome)
    requires Wellformed(s) && Calm(s) && call < |s.inFlight|
    ensures var t := ReplyArrived(s, call, outcome).state;
      Calm(t) && IsPrefix(s.transcript, t.transcript)
  {
    assert s.inFlight[call] == s.transcript;
    assert |s.inFlight| == 1 && s.timers == [];
  }

  lemma CalmToggle(s: State)
    requires Wellformed(s) && Calm(s)
    ensures var t := Toggle(s);
      Calm(t) && IsPrefix(s.transcript, t.transcript)
  {
    assert |s.inFlight| > 0 ==> EndsWithUser(s.inFlight[0]) && s.inFlight[0] == s.transcript;
  }

  /** Over a patient session the transcript only grows at its end: no turn
      is ever removed or rewritten. */
  lemma {:induction false} RunOnlyAppends(s: State, events: seq<Event>)
    requires Wellformed(s) && Calm(s) && PatientSession(s, events)
    ensures IsPrefix(s.transcript, Run(s, events).transcript)
    decreases |events|
  {
    if |events| > 0 {
      var t := Step(s, events[0]);
      PatientStepOnlyAppends(s, events[0]);
      RunOnlyAppends(t, events[1..]);
      PrefixTransitive(s.transcript, t.transcript, Run(t, events[1..]).transcript);
    }
  }

  // ---------------------------------------------------------------------
  // What an impatient user sees
  // ---------------------------------------------------------------------

  /** Two messages sent before the first answer: the first answer is shown
      after the first message only, and loading ends although the second
      call is still out; the second answer then brings back the second
      message, and the first answer is gone. */
  lemma OverlappingSendsLoseTurn(s: State, x: string, y: string, a: ChatOutcome, b: ChatOutcome)
    requires Wellformed(s) && s.page.LandingPage? && s.isOpen && s.inFlight == []
    requires !AllWhitespace(x) && !AllWhitespace(y)
    ensures var s1 := Step(Step(s, Typed(x)), Submitted);
      var s2 := Step(Step(s1, Typed(y)), Submitted);
      var s3 := Step(s2, ChatAnswered(0, a));
      var s4 := Step(s3, ChatAnswered(0, b));
      && s3.transcript == s.transcript + [Message(User, x), Message(Assistant, AssistantText(a))]
      && !s3.isLoading && |s3.inFlight| == 1
      && s4.transcript == s.transcript + [Message(User, x), Message(User, y), Message(Assistant, AssistantText(b))]
  {
    var s1 := Step(Step(s, Typed(x)), Submitted);
    TypeThenSubmit(s, x);
    var s2 := Step(Step(s1, Typed(y)), Submitted);
    TypeThenSubmit(s1, y);
    TwoCallsOut(s.transcript, s1.transcript, s2.transcript, s2.inFlight, x, y);
    var s3 := Step(s2, ChatAnswered(0, a));
    ReplyToFirst(s2, a);
    ReplyToFirst(s3, b);
  }

  /** The bookkeeping of two sends in a row. */
  lemma TwoCallsOut(t: seq<Message>, t1: seq<Message>, t2: seq<Message>, calls: seq<seq<Message>>, x: string, y: string)
    requires t1 == t + [Message(User, x)] && t2 == t1 + [Message(User, y)] && calls == [] + [t1] + [t2]
    ensures calls[0] == t + [Message(User, x)] && calls[1..] == [t2]
    ensures t2 == t + [Message(User, x), Message(User, y)]
  {
  }

  /** Typing a message and submitting it, from an open chat. */
  lemma TypeThenSubmit(s: State, x: string)
    requires Wellformed(s) && s.page.LandingPage? && s.isOpen && !AllWhitespace(x)
    ensures var t := Step(Step(s, Typed(x)), Submitted);
      && t.transcript == s.transcript + [Message(User, x)]
      && t.inFlight == s.inFlight + [t.transcript]
      && t.isLoading && t.isOpen && t.page.LandingPage?
  {
    var typed := Step(s, Typed(x));
    assert typed == s.(input := x);
  }

  /** The answer to the oldest in-flight call. */
  lemma ReplyToFirst(s: State, o: ChatOutcome)
    requires Wellformed(s) && |s.inFlight| > 0
    ensures var t := Step(s, ChatAnswered(0, o));
      && t.transcript == s.inFlight[0] + [Message(Assistant, AssistantText(o))]
      && t.inFlight == s.inFlight[1..]
      && !t.isLoading
  {
    assert s.inFlight[..0] + s.inFlight[1..] == s.inFlight[1..];
  }

  /** A prompt chosen on an empty chat: the greeting is shown, and the
      delayed send then replaces it with the prompt, because its closure saw
      the empty transcript. */
  lemma PromptReplacesGreeting(s: State, prompt: string)
    requires Wellformed(s) && s.page.LandingPage? && s.transcript == [] && s.timers == []
    requires !AllWhitespace(prompt)
    ensures var clicked := Step(s, PromptChosen(prompt));
      var fired := Step(clicked, PromptTimerFired);
      && clicked.transcript == [Message(Assistant, PromptGreeting(s.student.value))]
      && fired.transcript == [Message(User, prompt)]
  {
  }

  // ---------------------------------------------------------------------
  // Properties of the handlers
  // ---------------------------------------------------------------------

  /** A full send: the transcript ends up as it was plus exactly the user
      turn and one assistant turn, loading is over, no call is left over,
      and the save request (if a student is set) carries that whole
      transcript. */
  lemma SendThenReply(s: State, text: string, outcome: ChatOutcome)
    requires !AllWhitespace(text)
    ensures var sent := SendMessage(s, s.transcript, text);
      var done := ReplyArrived(sent.state, |s.inFlight|, outcome);
      && done.state.transcript == s.transcript + [Message(User, text), Message(Assistant, AssistantText(outcome))]
      && done.state.inFlight == s.inFlight
      && !done.state.isLoading
      && done.state.input == []
      && done.save == SaveRequestFor(s.student, done.state.transcript)
  {
    var sent := SendMessage(s, s.transcript, text);
    assert sent.state.inFlight[..|s.inFlight|] == s.inFlight;
    assert s.transcript + [Message(User, text)] + [Message(Assistant, AssistantText(outcome))]
        == s.transcript + [Message(User, text), Message(Assistant, AssistantText(outcome))];
  }

  /** Closing, by either control, never touches the transcript. */
  lemma ClosingKeepsTranscript(s: State)
    requires s.isOpen
    ensures Toggle(s).transcript == s.transcript && !Toggle(s).isOpen
    ensures Close(s).transcript == s.transcript && !Close(s).isOpen
  {
  }

  /** Opening, closing and reopening greets once: the second opening finds
      the greeting already there and adds nothing. */
  lemma GreetsOnce(s: State, closeWithButton: bool)
    requires !s.isOpen && s.transcript == [] && s.student.Some?
    ensures var first := Toggle(s);
      var closed := if closeWithButton then Close(first) else Toggle(first);
      var reopened := Toggle(closed);
      && first.transcript == [Message(Assistant, ToggleGreeting(s.student.value))]
      && reopened.isOpen
      && reopened.transcript == first.transcript
  {
  }

  /** On a started conversation a prompt opens the chat and schedules its
      send; the transcript is left as it is. */
  lemma PromptOnStartedChat(s: State, prompt: string)
    requires s.transcript != []
    ensures OpenWithPrompt(s, prompt) == s.(isOpen := true, timers := s.timers + [Timer(s.transcript, prompt)])
  {
  }

  /** A session starts at the signup page, and reaches the landing page
      exactly when registration answers with a student. */
  lemma SignupOutcomes(registered: Option<Student>)
    ensures var t := Step(Initial, SignupAnswered(registered));
      && (registered.Some? ==> t.page == LandingPage && t.student == registered)
      && (registered.None? ==> t.page == SignupPage && t.student.None?)
  {
  }
}

=== FILE: end_to_end.dfy ===
/** The client and the server composed: what the user sees in the transcript
    and what ends up in the store after a registration, a chat turn and a
    save. */
module EndToEnd {
  import opened Optional
  import opened Text
  import opened Records
  import opened Replies
  import Sanitizer
  import SanitizerLaws
  import Server
  import Client

  /** The HTTP client resolves on a 2xx status and throws otherwise. */
  function ObserveChat(r: Server.Response): (o: Client.ChatOutcome)
    requires r.body.ReplyBody?
    ensures o.Answered? <==> 200 <= r.status < 300
    ensures o.Answered? ==> o.response == r.body.response
  {
    if 200 <= r.status < 300 then Client.Answered(r.body.response) else Client.CallFailed
  }

  /** What `handleSignup` receives from the register call. */
  function ObserveRegister(r: Server.Response): (o: Option<Student>)
    ensures o.Some? ==> 200 <= r.status < 300 && r.body == Server.StudentBody(o)
    ensures !(200 <= r.status < 300) ==> o.None?
    ensures 200 <= r.status < 300 && r.body.StudentBody? ==> o == r.body.student
  {
    if 200 <= r.status < 300 && r.body.StudentBody? then r.body.student else None
  }

  /** Every 2xx answer of the register handler holds a student, so the
      client never receives a `null` student from it: it moves to the landing
      page exactly when the handler answers 201. */
  lemma RegisterAnswerCarriesStudent(st: Server.Store, form: StudentForm, db: Server.Db, now: Timestamp)
    ensures var r := Server.RegisterStudent(st, form, db, now).response;
      && (200 <= r.status < 300 <==> r.status == 201)
      && (200 <= r.status < 300 ==> r.body.StudentBody? && r.body.student.Some?)
      && (ObserveRegister(r).Some? <==> r.status == 201)
  {
  }

  /** Registering from the signup page with a valid form moves the client to
      the landing page holding the stored record; an invalid form leaves it
      on the signup page without a student and the store unchanged. */
  lemma SignupRoundTrip(st: Server.Store, form: StudentForm, now: Timestamp)
    ensures var h := Server.RegisterStudent(st, form, Server.Up, now);
      var t := Client.SignupDone(Client.Initial, ObserveRegister(h.response));
      && (IsValid(form) ==>
            && t.page == Client.LandingPage
            && t.student.Some?
            && h.store.students == st.students + [t.student.value]
            && Some(t.student.value.name) == form.name)
      && (!IsValid(form) ==> t == Client.Initial && h.store == st)
  {
  }

  /** One conversation turn across both sides. The transcript gains exactly
      the user turn and one assistant turn. With a student set and a
      completion, the assistant turn is the sanitised content, free of `/`,
      `O`, `U`, `T`; otherwise it is the client's own apology, never the
      server's 500 text. */
  lemma ConversationTurn(s: Client.State, text: string, upstream: Server.Upstream)
    requires !AllWhitespace(text)
    ensures var sent := Client.SendMessage(s, s.transcript, text);
      var resp := Server.ChatReply(sent.request.value, upstream);
      var done := Client.ReplyArrived(sent.state, |s.inFlight|, ObserveChat(resp));
      var last := done.state.transcript[|done.state.transcript| - 1];
      && |done.state.transcript| == |s.transcript| + 2
      && done.state.transcript[..|s.transcript|] == s.transcript
      && done.state.transcript[|s.transcript|] == Message(User, text)
      && last.role == Assistant
      && (s.student.Some? && upstream.Completed? ==>
            last.content == Sanitizer.Sanitize(upstream.content) && Sanitizer.ClassFree(last.content))
      && (s.student.None? || upstream.GatewayFailed? ==> last.content == ClientErrorReply)
  {
    var sent := Client.SendMessage(s, s.transcript, text);
    var resp := Server.ChatReply(sent.request.value, upstream);
    Client.SendThenReply(s, text, ObserveChat(resp));
    if s.student.Some? && upstream.Completed? {
      SanitizerLaws.CleanShape(Sanitizer.ChooseReply(upstream.content));
    }
  }

  /** The save the client issues after a reply stores a new Chat document
      with the student's id and the whole transcript, after all earlier ones. */
  lemma SaveRoundTrip(st: Server.Store, student: Student, transcript: seq<Message>)
    ensures var req := Client.SaveRequestFor(Some(student), transcript);
      var h := Server.SaveChat(st, req.value, Server.Up);
      && h.response.status == 200
      && h.store.chats == st.chats + [Chat(Some(student.id), transcript)]
      && h.store.students == st.students
  {
  }
}

=== FILE: optional.dfy ===
/** The optional value used wherever the source works with `undefined`/`null`
    or with a field that may be missing from a JSON body. */
module Optional {

  datatype Option<+T> = None | Some(value: T)
}

=== FILE: records.dfy ===
/** The records the application stores and exchanges: the Student schema with
    its required-field rule, the Chat schema, and the JSON bodies the client
    sends to the server. */
module Records {
  import opened Optional

  /** Abstract document identifier (MongoDB's ObjectId). */
  type StudentId = nat

  /** Creation time in milliseconds, as `Date.now` gives it. */
  type Timestamp = int

  /** A turn's `role`. The Chat schema types it as a plain string, so any
      text is stored; the client only ever sends `user` and `assistant`. */
  type Role = string

  const User: Role := "user"
  const Assistant: Role := "assistant"

  /** One transcript turn `{role, content}`. */
  datatype Message = Message(role: Role, content: string)

  /** The `createdAt` of a registration body: missing, a value that casts
      to a Date (kept as its time), or one that does not (`"soon"`, say). */
  datatype DateField = NoDate | At(time: Timestamp) | BadDate

  /** The registration body as it arrives: any field may be missing.
      `schoolClass` is the schema's `class` field. */
  datatype StudentForm = StudentForm(
    name: Option<string>,
    schoolClass: Option<string>,
    interests: Option<string>,
    location: Option<string>,
    createdAt: DateField)

  /** A saved Student document. */
  datatype Student = Student(
    id: StudentId,
    name: string,
    schoolClass: string,
    interests: string,
    location: string,
    createdAt: Timestamp)

  /** A saved Chat document: a weak reference to a student and a transcript.
      Per-message timestamps are clock values and are not modelled. */
  datatype Chat = Chat(studentId: Option<StudentId>, messages: seq<Message>)

  /** The schema paths validation can fail on: the four required fields,
      in schema order, and `createdAt` when it does not cast. */
  datatype Field = NameField | ClassField | InterestsField | LocationField | CreatedAtField

  /** The schema's `required: true` for a string path: the value is there and
      is not the empty string. */
  predicate Present(v: Option<string>) {
    v.Some? && v.value != []
  }

  predicate HasRequired(f: StudentForm) {
    Present(f.name) && Present(f.schoolClass) && Present(f.interests) && Present(f.location)
  }

  /** The body validates: every required field is present and `createdAt`,
      if given, casts. */
  predicate IsValid(f: StudentForm) {
    HasRequired(f) && !f.createdAt.BadDate?
  }

  /** The fields whose required check fails, in schema order. */
  function MissingFields(f: StudentForm): (m: seq<Field>)
    ensures NameField in m <==> !Present(f.name)
    ensures ClassField in m <==> !Present(f.schoolClass)
    ensures InterestsField in m <==> !Present(f.interests)
    ensures LocationField in m <==> !Present(f.location)
    ensures CreatedAtField !in m
    ensures m == [] <==> HasRequired(f)
    ensures |m| <= 4
  {
    (if Present(f.name) then [] else [NameField])
    + (if Present(f.schoolClass) then [] else [ClassField])
    + (if Present(f.interests) then [] else [InterestsField])
    + (if Present(f.location) then [] else [LocationField])
  }

  /** Every path validation fails on: the missing required fields, then
      `createdAt` when it does not cast. Validation fails exactly when this
      is non-empty. */
  function FailedPaths(f: StudentForm): (p: seq<Field>)
    ensures p == [] <==> IsValid(f)
    ensures CreatedAtField in p <==> f.createdAt.BadDate?
    ensures forall field :: field != CreatedAtField ==> (field in p <==> field in MissingFields(f))
  {
    MissingFields(f) + (if f.createdAt.BadDate? then [CreatedAtField] else [])
  }

  /** The document `new Student(body)` builds for a valid body: the submitted
      text fields unchanged, the given id, and `createdAt` defaulted to the
      current time when the body does not supply one. */
  function NewStudent(f: StudentForm, id: StudentId, now: Timestamp): (s: Student)
    requires IsValid(f)
    ensures s.id == id
    ensures Some(s.name) == f.name && Some(s.schoolClass) == f.schoolClass
    ensures Some(s.interests) == f.interests && Some(s.location) == f.location
    ensures f.createdAt.At? ==> s.createdAt == f.createdAt.time
    ensures f.createdAt.NoDate? ==> s.createdAt == now
  {
    Student(id, f.name.value, f.schoolClass.value, f.interests.value, f.location.value,
            if f.createdAt.At? then f.createdAt.time else now)
  }

  /** The `studentId` of a save request: missing, a well-formed id, or a value
      that does not cast to an id. */
  datatype IdRef = NoId | Ref(id: StudentId) | Malformed

  /** Body of `POST /api/chat`. `studentData` is whatever the client holds,
      possibly `null`. */
  datatype ChatRequest = ChatRequest(message: string, studentData: Option<Student>)

  /** The `messages` of a save request: missing, a list of turns, or a value
      that does not cast to the schema's array of `{role, content}`
      subdocuments (a string, an element that is not an object, a `role`
      that is an object, ...). */
  datatype MessageList = NoMessages | Turns(turns: seq<Message>) | Uncastable

  /** Body of `POST /api/chat/save`. */
  datatype SaveRequest = SaveRequest(studentId: IdRef, messages: MessageList)
}

=== FILE: replies.dfy ===
/** The fixed texts the application answers with, and the character facts
    about them that the pipeline lemmas need. */
module Replies {

  /** What the chat endpoint uses when the completion has no content
      (backend/index.js line 74). */
  const NoContentReply: string := "Sorry, I couldn't generate a response."

  /** The chat endpoint's 500 body text (backend/index.js line 86). */
  const TroubleReply: string := "I'm having trouble connecting. Please try again later."

  /** The assistant turn the client appends when the chat call fails
      (frontend/src/App.jsx line 121). */
  const ClientErrorReply: string := "Sorry, I'm having trouble connecting. Please try again later."

  /** The fallback contains no `<`, `/`, `O`, `U` or `T`, starts with `S` and
      ends with `.`. */
  lemma NoContentReplyChars()
    ensures forall i :: 0 <= i < |NoContentReply| ==>
      NoContentReply[i] != '<' && NoContentReply[i] != '/' && NoContentReply[i] != 'O'
      && NoContentReply[i] != 'U' && NoContentReply[i] != 'T'
    ensures NoContentReply[0] == 'S' && NoContentReply[|NoContentReply| - 1] == '.'
  {
  }
}

=== FILE: sanitizer.dfy ===
/** The chat endpoint's reply pipeline: pick the model's content or a fixed
    fallback, apply three global regular-expression deletions in order, then
    `trim`. Every stage only deletes characters. */
module Sanitizer {
  import opened Optional
  import opened Text
  import opened Replies

  /** The content when it is a non-empty string, otherwise the fallback
      (JavaScript's `content || fallback` for string-or-missing content). */
  function ChooseReply(content: Option<string>): (r: string)
    ensures |r| > 0
    ensures content.Some? && content.value != [] ==> r == content.value
    ensures content.None? || content.value == [] ==> r == NoContentReply
  {
    if content.Some? && content.value != [] then content.value else NoContentReply
  }

  // ---------------------------------------------------------------------
  // Stage 1: /<s>\s*\[OUT\]\s*/g
  // ---------------------------------------------------------------------

  /** If the pattern `<s>\s*\[OUT\]\s*` matches at the start of `s`, the
      index just past the match. Both `\s*` are greedy; the first is followed
      by `[`, which is not whitespace, so only its maximal run can succeed, and
      the second takes its maximal run because nothing follows it. */
  function MarkerEnd(s: string): (m: Option<nat>)
    ensures m.Some? ==> 8 <= m.value <= |s| && s[0] == '<'
  {
    if OpenTagAt(s) then
      var k := OpenEnd(s);
      if CloseTagAt(s, k) then Some(CloseEnd(s, k)) else None
    else None
  }

  /** Where the first `\s*` of the pattern stops, after `<s>`. */
  function OpenEnd(s: string): (k: nat)
    requires |s| >= 3
    ensures 3 <= k <= |s|
  {
    3 + LeadingSpace(s[3..])
  }

  /** Where the second `\s*` of the pattern stops, after `[OUT]` at `k`. */
  function CloseEnd(s: string, k: nat): (e: nat)
    requires k + 5 <= |s|
    ensures k + 5 <= e <= |s|
  {
    k + 5 + LeadingSpace(s[k + 5..])
  }

  /** `s` starts with `<s>`. */
  predicate OpenTagAt(s: string) {
    |s| >= 3 && s[0] == '<' && s[1] == 's' && s[2] == '>'
  }

  /** `[OUT]` stands at index `k` of `s`. */
  predicate CloseTagAt(s: string, k: nat) {
    k + 5 <= |s| && s[k] == '[' && s[k + 1] == 'O' && s[k + 2] == 'U' && s[k + 3] == 'T' && s[k + 4] == ']'
  }

  /** One left-to-right global replace of the marker pattern by "". A match
      resumes the scan right after it; a miss keeps one character. */
  function StripMarker(s: string): (r: string)
    ensures |r| <= |s|
    decreases |s|
  {
    if |s| == 0 then []
    else match MarkerEnd(s)
      case Some(m) => StripMarker(s[m..])
      case None => [s[0]] + StripMarker(s[1..])
  }

  // ---------------------------------------------------------------------
  // Stage 2: /s<out>/g
  // ---------------------------------------------------------------------

  /** `s` starts with the literal `s<out>`. */
  predicate StartsWithSOut(s: string) {
    |s| >= 6 && s[0] == 's' && s[1] == '<' && s[2] == 'o' && s[3] == 'u' && s[4] == 't' && s[5] == '>'
  }

  /** One left-to-right global replace of the literal `s<out>` by "". */
  function StripSOut(s: string): (r: string)
    ensures |r| <= |s|
    decreases |s|
  {
    if |s| == 0 then []
    else if StartsWithSOut(s) then StripSOut(s[6..])
    else [s[0]] + StripSOut(s[1..])
  }

  // ---------------------------------------------------------------------
  // Stage 3: /[/OUT]/g -- a character class, not the fragment "/OUT]"
  // ---------------------------------------------------------------------

  /** The characters of the class `[/OUT]`. */
  predicate InClass(c: char) {
    c == '/' || c == 'O' || c == 'U' || c == 'T'
  }

  predicate ClassFree(s: string) {
    forall i :: 0 <= i < |s| ==> !InClass(s[i])
  }

  /** Deletes every character of the class, wherever it stands. */
  function DropClass(s: string): (r: string)
    ensures ClassFree(r)
    ensures |r| <= |s|
    decreases |s|
  {
    if |s| == 0 then []
    else
      var tail := DropClass(s[1..]);
      assert s == [s[0]] + s[1..];
      if InClass(s[0]) then tail else [s[0]] + tail
  }

  // ---------------------------------------------------------------------
  // The whole pipeline
  // ---------------------------------------------------------------------

  /** The three deletions followed by `trim`. */
  function Clean(reply: string): (r: string)
    ensures |r| <= |reply|
    ensures ClassFree(r)
  {
    var d := DropClass(StripSOut(StripMarker(reply)));
    ClassFreeSlice(d, TrimFrom(d), TrimTo(d));
    Trim(d)
  }

  /** A slice of class-free text is class-free. */
  lemma ClassFreeSlice(s: string, i: nat, j: nat)
    requires ClassFree(s) && i <= j <= |s|
    ensures ClassFree(s[i..j])
  {
    assert forall k :: 0 <= k < j - i ==> s[i..j][k] == s[i + k];
  }

  /** The text the chat endpoint answers with, given the completion's content. */
  function Sanitize(content: Option<string>): (r: string)
    ensures |r| <= |ChooseReply(content)|
    ensures ClassFree(r)
  {
    Clean(ChooseReply(content))
  }

  /** `p` occurs in `s` starting at index `k`. */
  predicate OccursAt(s: string, k: int, p: string) {
    0 <= k && k + |p| <= |s| && s[k..k + |p|] == p
  }

  /** `s` contains no `<`, so neither pattern can match in it. */
  predicate NoAngle(s: string) {
    forall i :: 0 <= i < |s| ==> s[i] != '<'
  }
}

=== FILE: sanitizer_examples.dfy ===
/** Concrete replies run through the sanitiser, each stage stated separately
    so that every step is a small proof. */
module SanitizerExamples {
  import opened Optional
  import opened Text
  import opened Sanitizer
  import opened SanitizerLaws

  const Hello: string := "Hello there"
  const MarkedHello: string := "<s>[OUT] Hello there"
  const Engineering: string := "Try engineering."
  const Ngineering: string := "ry engineering."
  const SingleTag: string := "s<out>"
  const DoubledTag: string := "ss<out><out>"
  const InnerTag: string := "s<out><out>"
  const CloseTag: string := "<out>"
  const Fragment: string := "a/OUT]b"
  const FragmentTail: string := "]b"
  const FragmentKept: string := "a]b"
  const Unclosed: string := "<s> hi"
  const UnclosedTail: string := "s> hi"

  // ---------------------------------------------------------------------
  // "<s>[OUT] Hello there" becomes "Hello there"
  // ---------------------------------------------------------------------

  lemma HelloParts()
    ensures "<s>" + "" + "[OUT]" + " " + Hello == MarkedHello
    ensures AllWhitespace("") && AllWhitespace(" ") && !IsWhitespace(Hello[0])
  {
  }

  lemma HelloIsPlain()
    ensures NoAngle(Hello) && ClassFree(Hello)
  {
    NoAngleLiteral(Hello);
    ClassFreeLiteral(Hello);
  }

  lemma HelloMarkerStripped()
    ensures StripMarker(MarkedHello) == Hello
  {
    HelloParts();
    MarkerPrefixRemoved("", " ", Hello);
    HelloIsPlain();
    StripMarkerIdentity(Hello);
  }

  lemma HelloUntouchedByRest()
    ensures Trim(DropClass(StripSOut(Hello))) == Hello
  {
    HelloIsPlain();
    StripSOutIdentity(Hello);
    DropClassIdentity(Hello);
    HelloTrimmed();
  }

  lemma HelloTrimmed()
    ensures Trim(Hello) == Hello
  {
    TrimIdentity(Hello);
  }

  /** The leading marker and the space after it are removed as a whole. */
  lemma LeadingMarkerExample()
    ensures Clean(MarkedHello) == Hello
  {
    HelloMarkerStripped();
    HelloUntouchedByRest();
  }

  // ---------------------------------------------------------------------
  // An opening tag without `[OUT]` is not a match
  // ---------------------------------------------------------------------

  lemma UnclosedIsNoMatch()
    ensures MarkerEnd(Unclosed) == None
  {
    assert OpenTagAt(Unclosed);
    assert OpenEnd(Unclosed) == 4 by {
      assert Unclosed[3..] == " hi";
      assert LeadingSpace(" hi"[1..]) == 0;
    }
    assert !CloseTagAt(Unclosed, 4);
  }

  lemma UnclosedTailKept()
    ensures StripMarker(UnclosedTail) == UnclosedTail
  {
    NoAngleLiteral(UnclosedTail);
    StripMarkerIdentity(UnclosedTail);
  }

  /** `<s> hi` passes through the first replacement unchanged: without
      `[OUT]` the opening tag is not removed. */
  lemma UnclosedExample()
    ensures StripMarker(Unclosed) == Unclosed
  {
    UnclosedIsNoMatch();
    UnclosedTailKept();
    assert Unclosed[1..] == UnclosedTail;
    assert [Unclosed[0]] + UnclosedTail == Unclosed;
  }

  // ---------------------------------------------------------------------
  // The class [/OUT] deletes characters, not the fragment "/OUT]"
  // ---------------------------------------------------------------------

  lemma TourUntouchedByPatterns()
    ensures StripSOut(StripMarker("TOUR")) == "TOUR"
  {
    NoAngleLiteral("TOUR");
    StripMarkerIdentity("TOUR");
    StripSOutIdentity("TOUR");
  }

  lemma TourExample()
    ensures Clean("TOUR") == "R"
  {
    TourUntouchedByPatterns();
    assert DropClass("TOUR") == "R";
    TrimIdentity("R");
  }

  lemma FragmentUntouchedByPatterns()
    ensures StripSOut(StripMarker(Fragment)) == Fragment
  {
    NoAngleLiteral(Fragment);
    StripMarkerIdentity(Fragment);
    StripSOutIdentity(Fragment);
  }

  lemma FragmentDropped()
    ensures DropClass(Fragment) == FragmentKept
  {
    DropClassSkipsRun(Fragment, 1, 5);
    assert Fragment[5..] == FragmentTail;
    ClassFreeLiteral(FragmentTail);
    DropClassIdentity(FragmentTail);
    assert [Fragment[0]] + FragmentTail == FragmentKept;
  }

  /** Only the class characters go; the `]` of the fragment stays. */
  lemma FragmentExample()
    ensures Clean(Fragment) == FragmentKept
  {
    FragmentUntouchedByPatterns();
    FragmentDropped();
    TrimIdentity(FragmentKept);
  }

  lemma EngineeringUntouchedByPatterns()
    ensures StripSOut(StripMarker(Engineering)) == Engineering
  {
    NoAngleLiteral(Engineering);
    StripMarkerIdentity(Engineering);
    StripSOutIdentity(Engineering);
  }

  lemma EngineeringDropped()
    ensures DropClass(Engineering) == Ngineering
  {
    assert Engineering[1..] == Ngineering;
    ClassFreeLiteral(Ngineering);
    DropClassIdentity(Ngineering);
  }

  /** An ordinary upstream answer loses its capital `T`. */
  lemma EngineeringExample()
    ensures Clean(Engineering) == Ngineering
  {
    EngineeringUntouchedByPatterns();
    EngineeringDropped();
    TrimIdentity(Ngineering);
  }

  // ---------------------------------------------------------------------
  // `s<out>` removal is a single pass, so the pipeline is not idempotent
  // ---------------------------------------------------------------------

  lemma DoubledTagKeptByMarker()
    ensures StripMarker(DoubledTag) == DoubledTag
  {
    DoubledTagNoMarkerStart();
    StripMarkerFixes(DoubledTag);
  }

  /** Each `<` in `ss<out><out>` is followed by `o`. */
  lemma DoubledTagNoMarkerStart()
    ensures forall i :: 0 <= i < |DoubledTag| - 1 ==> DoubledTag[i] == '<' ==> DoubledTag[i + 1] != 's'
  {
    forall i | 0 <= i < |DoubledTag| - 1 && DoubledTag[i] == '<'
      ensures DoubledTag[i + 1] != 's'
    {
      assert i == 2 || i == 7;
    }
  }

  lemma DoubledTagOnePass()
    ensures StripSOut(DoubledTag) == SingleTag
  {
    DoubledTagFirstKept();
    InnerTagRemoved();
    OuterTagKept();
    TagJoin();
  }

  lemma TagJoin()
    ensures [DoubledTag[0]] + CloseTag == SingleTag
  {
  }

  /** The first `s` does not start `s<out>`, so it is kept. */
  lemma DoubledTagFirstKept()
    ensures StripSOut(DoubledTag) == [DoubledTag[0]] + StripSOut(InnerTag)
  {
    assert !StartsWithSOut(DoubledTag);
    assert DoubledTag[1..] == InnerTag;
  }

  /** The inner `s<out>` is removed. */
  lemma InnerTagRemoved()
    ensures StripSOut(InnerTag) == StripSOut(CloseTag)
  {
    assert StartsWithSOut(InnerTag);
    assert InnerTag[6..] == CloseTag;
  }

  /** What is left has no `s<out>`. */
  lemma OuterTagKept()
    ensures StripSOut(CloseTag) == CloseTag
  {
    assert !StartsWithSOut(CloseTag);
    assert CloseTag[1..] == "out>";
    NoAngleLiteral("out>");
    StripSOutIdentity("out>");
  }

  lemma SingleTagSurvivesRest()
    ensures DropClass(SingleTag) == SingleTag
    ensures Trim(SingleTag) == SingleTag
    ensures StripMarker(SingleTag) == SingleTag
  {
    SingleTagClassFree();
    SingleTagTrimmed();
    SingleTagNoMarkerStart();
    StripMarkerFixes(SingleTag);
  }

  /** The only `<` in `s<out>` is followed by `o`. */
  lemma SingleTagNoMarkerStart()
    ensures forall i :: 0 <= i < |SingleTag| - 1 ==> SingleTag[i] == '<' ==> SingleTag[i + 1] != 's'
  {
    forall i | 0 <= i < |SingleTag| - 1 && SingleTag[i] == '<'
      ensures SingleTag[i + 1] != 's'
    {
      assert i == 1;
    }
  }

  lemma SingleTagClassFree()
    ensures DropClass(SingleTag) == SingleTag
  {
    ClassFreeLiteral(SingleTag);
    DropClassIdentity(SingleTag);
  }

  lemma SingleTagTrimmed()
    ensures Trim(SingleTag) == SingleTag
  {
    TrimIdentity(SingleTag);
  }

  lemma SingleTagRemoved()
    ensures Clean(SingleTag) == ""
  {
    SingleTagSurvivesRest();
    assert StartsWithSOut(SingleTag);
    assert SingleTag[6..] == "";
  }

  /** Removing `s<out>` once can form a new `s<out>`, which a second
      application then removes. */
  lemma NotIdempotent()
    ensures Clean(DoubledTag) == SingleTag
    ensures Clean(Clean(DoubledTag)) == ""
  {
    DoubledTagKeptByMarker();
    DoubledTagOnePass();
    SingleTagSurvivesRest();
    SingleTagRemoved();
  }
}

=== FILE: sanitizer_laws.dfy ===
/** Properties of the chat reply pipeline: every stage only deletes, what the
    final reply cannot contain, the text each stage leaves alone, and how the
    two patterns act wherever they occur. */
module SanitizerLaws {
  import opened Optional
  import opened Text
  import opened Replies
  import opened Sanitizer

  // ---------------------------------------------------------------------
  // The character class keeps everything else
  // ---------------------------------------------------------------------

  /** Every character outside the class is kept, as often as it occurs. */
  lemma {:induction false} DropClassKeepsOthers(s: string, c: char)
    requires !InClass(c)
    ensures multiset(DropClass(s))[c] == multiset(s)[c]
    decreases |s|
  {
    if |s| > 0 {
      DropClassKeepsOthers(s[1..], c);
      assert s == [s[0]] + s[1..];
      assert multiset(s) == multiset([s[0]]) + multiset(s[1..]);
      if !InClass(s[0]) {
        assert multiset(DropClass(s)) == multiset([s[0]]) + multiset(DropClass(s[1..]));
      }
    }
  }

  // ---------------------------------------------------------------------
  // Every stage only deletes
  // ---------------------------------------------------------------------

  lemma {:induction false} StripMarkerDeletes(s: string)
    ensures IsSubsequence(StripMarker(s), s)
    decreases |s|
  {
    if |s| > 0 {
      var m := MarkerEnd(s);
      if m.Some? {
        assert StripMarker(s) == StripMarker(s[m.value..]);
        StripMarkerDeletes(s[m.value..]);
        SuffixKeepsSubsequence(StripMarker(s[m.value..]), s, m.value);
      } else {
        assert StripMarker(s) == [s[0]] + StripMarker(s[1..]);
        StripMarkerDeletes(s[1..]);
        SubsequenceCons(s[0], StripMarker(s[1..]), s[1..]);
        assert [s[0]] + s[1..] == s;
      }
    }
  }

  lemma {:induction false} StripSOutDeletes(s: string)
    ensures IsSubsequence(StripSOut(s), s)
    decreases |s|
  {
    if |s| > 0 {
      if StartsWithSOut(s) {
        StripSOutDeletes(s[6..]);
        SuffixIsSubsequence(s, 6);
        SubsequenceTransitive(StripSOut(s[6..]), s[6..], s);
      } else {
        StripSOutDeletes(s[1..]);
        SubsequenceCons(s[0], StripSOut(s[1..]), s[1..]);
        assert [s[0]] + s[1..] == s;
      }
    }
  }

  lemma {:induction false} DropClassDeletes(s: string)
    ensures IsSubsequence(DropClass(s), s)
    decreases |s|
  {
    if |s| > 0 {
      DropClassDeletes(s[1..]);
      if InClass(s[0]) {
        SuffixIsSubsequence(s, 1);
        SubsequenceTransitive(DropClass(s[1..]), s[1..], s);
      } else {
        SubsequenceCons(s[0], DropClass(s[1..]), s[1..]);
        assert [s[0]] + s[1..] == s;
      }
    }
  }

  /** The final reply is obtained from the chosen reply by deletions alone,
      so it is never longer. */
  lemma CleanDeletes(reply: string)
    ensures IsSubsequence(Clean(reply), reply)
    ensures |Clean(reply)| <= |reply|
  {
    var s1 := StripMarker(reply);
    var s2 := StripSOut(s1);
    var s3 := DropClass(s2);
    StripMarkerDeletes(reply);
    StripSOutDeletes(s1);
    DropClassDeletes(s2);
    TrimIsSubsequence(s3);
    SubsequenceTransitive(s2, s1, reply);
    SubsequenceTransitive(s3, s2, reply);
    SubsequenceTransitive(Clean(reply), s3, reply);
    SubsequenceLength(Clean(reply), reply);
  }

  // ---------------------------------------------------------------------
  // What the final reply cannot contain
  // ---------------------------------------------------------------------

  /** No `/`, `O`, `U` or `T` survives, and no whitespace sits at either end;
      in particular the marker `[OUT]` can never appear. */
  lemma CleanShape(reply: string)
    ensures ClassFree(Clean(reply))
    ensures |Clean(reply)| > 0 ==> !IsWhitespace(Clean(reply)[0]) && !IsWhitespace(Clean(reply)[|Clean(reply)| - 1])
    ensures forall k :: !OccursAt(Clean(reply), k, "[OUT]")
  {
    ClassFreeHasNoMarker(Clean(reply));
  }

  lemma ClassFreeHasNoMarker(r: string)
    requires ClassFree(r)
    ensures forall k :: !OccursAt(r, k, "[OUT]")
  {
    forall k
      ensures !OccursAt(r, k, "[OUT]")
    {
      if 0 <= k && k + 5 <= |r| {
        assert r[k..k + 5][1] == r[k + 1];
      }
    }
  }

  // ---------------------------------------------------------------------
  // Identity on text the stages do not touch
  // ---------------------------------------------------------------------

  lemma {:induction false} StripMarkerIdentity(s: string)
    requires NoAngle(s)
    ensures StripMarker(s) == s
    decreases |s|
  {
    if |s| > 0 {
      assert MarkerEnd(s) == None;
      StripMarkerIdentity(s[1..]);
      assert [s[0]] + s[1..] == s;
    }
  }

  lemma {:induction false} StripSOutIdentity(s: string)
    requires NoAngle(s)
    ensures StripSOut(s) == s
    decreases |s|
  {
    if |s| > 0 {
      assert !StartsWithSOut(s) by { if |s| >= 6 { assert s[1] != '<'; } }
      StripSOutIdentity(s[1..]);
      assert [s[0]] + s[1..] == s;
    }
  }

  lemma {:induction false} DropClassIdentity(s: string)
    requires ClassFree(s)
    ensures DropClass(s) == s
    decreases |s|
  {
    if |s| > 0 {
      DropClassIdentity(s[1..]);
      assert [s[0]] + s[1..] == s;
    }
  }

  /** A run of class characters is deleted as a whole. */
  lemma {:induction false} DropClassSkipsRun(s: string, i: nat, j: nat)
    requires i <= j <= |s|
    requires forall k :: i <= k < j ==> InClass(s[k])
    ensures DropClass(s[i..]) == DropClass(s[j..])
    decreases j - i
  {
    if i < j {
      assert s[i..][1..] == s[i + 1..];
      DropClassSkipsRun(s, i + 1, j);
    }
  }

  /** A reply the pipeline leaves alone: no `<` (so neither pattern can
      match), no class character, no edge whitespace. */
  lemma CleanIdentity(s: string)
    requires NoAngle(s)
    requires ClassFree(s)
    requires |s| > 0 ==> !IsWhitespace(s[0]) && !IsWhitespace(s[|s| - 1])
    ensures Clean(s) == s
  {
    StripMarkerIdentity(s);
    StripSOutIdentity(s);
    DropClassIdentity(s);
    TrimIdentity(s);
  }

  /** Absent or empty content yields exactly the fallback, which the pipeline
      leaves unchanged. */
  lemma NoContentYieldsFallback(content: Option<string>)
    requires content.None? || content.value == []
    ensures Sanitize(content) == NoContentReply
  {
    FallbackIsClean();
  }

  lemma FallbackIsClean()
    ensures Clean(NoContentReply) == NoContentReply
  {
    NoContentReplyChars();
    CleanIdentityNonEmpty(NoContentReply);
  }

  lemma CleanIdentityNonEmpty(s: string)
    requires |s| > 0 && NoAngle(s) && ClassFree(s)
    requires !IsWhitespace(s[0]) && !IsWhitespace(s[|s| - 1])
    ensures Clean(s) == s
  {
    CleanIdentity(s);
  }

  // ---------------------------------------------------------------------
  // The marker pattern
  // ---------------------------------------------------------------------

  /** The leading whitespace run of `w + t` is exactly `w` when `t` does not
      start with whitespace. */
  lemma {:induction false} LeadingSpaceOfRun(w: string, t: string)
    requires AllWhitespace(w)
    requires |t| > 0 ==> !IsWhitespace(t[0])
    ensures LeadingSpace(w + t) == |w|
    decreases |w|
  {
    if |w| > 0 {
      assert (w + t)[0] == w[0];
      assert (w + t)[1..] == w[1..] + t;
      LeadingSpaceOfRun(w[1..], t);
    } else {
      assert w + t == t;
    }
  }

  /** A leading `<s>`, any whitespace, `[OUT]`, any whitespace is removed as a
      whole: the result is that of the text after it. */
  lemma MarkerPrefixRemoved(w1: string, w2: string, rest: string)
    requires AllWhitespace(w1) && AllWhitespace(w2)
    requires |rest| > 0 ==> !IsWhitespace(rest[0])
    ensures StripMarker("<s>" + w1 + "[OUT]" + w2 + rest) == StripMarker(rest)
  {
    var s := "<s>" + w1 + "[OUT]" + w2 + rest;
    MarkerMatchesPrefix(w1, w2, rest);
    var m := 8 + |w1| + |w2|;
    assert s[m..] == rest;
  }

  /** The marker pattern is removed wherever it occurs: a scan that reaches
      it has consumed the text before it exactly as it would on its own. */
  lemma MarkerRemovedAnywhere(x: string, w1: string, w2: string, rest: string)
    requires AllWhitespace(w1) && AllWhitespace(w2)
    requires |rest| > 0 ==> !IsWhitespace(rest[0])
    ensures StripMarker(x + ("<s>" + w1 + "[OUT]" + w2 + rest)) == StripMarker(x) + StripMarker(rest)
  {
    var t := "<s>" + w1 + "[OUT]" + w2 + rest;
    assert t[0] == '<';
    StripMarkerAppend(x, t);
    MarkerPrefixRemoved(w1, w2, rest);
  }

  /** No match of the marker pattern straddles a `<`: the first replacement
      treats the text before one and the text from it independently. */
  lemma {:induction false} StripMarkerAppend(x: string, t: string)
    requires |t| > 0 && t[0] == '<'
    ensures StripMarker(x + t) == StripMarker(x) + StripMarker(t)
    decreases |x|
  {
    if |x| == 0 {
      var r := StripMarker(t);
      assert x + t == t;
      assert StripMarker(x) == [];
      assert [] + r == r;
    } else {
      MarkerEndAppend(x, t);
      var m := MarkerEnd(x);
      if m.Some? {
        StripMarkerAppend(x[m.value..], t);
        SkipAppended(x, t, m.value);
      } else {
        StripMarkerAppend(x[1..], t);
        KeepAppended(x, t);
      }
    }
  }

  /** The scan step past a match, on `x` and on `x + t` alike. */
  lemma SkipAppended(x: string, t: string, v: nat)
    requires 0 < v <= |x|
    requires MarkerEnd(x) == Some(v) && MarkerEnd(x + t) == Some(v)
    requires StripMarker(x[v..] + t) == StripMarker(x[v..]) + StripMarker(t)
    ensures StripMarker(x + t) == StripMarker(x) + StripMarker(t)
  {
    StripMarkerSkip(x + t, v);
    StripMarkerSkip(x, v);
    DropOfAppend(x, t, v);
  }

  /** The scan step keeping one character, on `x` and on `x + t` alike. */
  lemma KeepAppended(x: string, t: string)
    requires |x| > 0
    requires MarkerEnd(x).None? && MarkerEnd(x + t).None?
    requires StripMarker(x[1..] + t) == StripMarker(x[1..]) + StripMarker(t)
    ensures StripMarker(x + t) == StripMarker(x) + StripMarker(t)
  {
    StripMarkerKeep(x + t);
    StripMarkerKeep(x);
    DropOfAppend(x, t, 1);
    ConsAssoc(x[0], StripMarker(x[1..]), StripMarker(t));
  }

  lemma DropOfAppend(x: string, t: string, v: nat)
    requires v <= |x|
    ensures (x + t)[v..] == x[v..] + t
    ensures |x| > 0 ==> (x + t)[0] == x[0]
  {
  }

  lemma ConsAssoc(c: char, a: string, b: string)
    ensures [c] + (a + b) == [c] + a + b
  {
  }

  /** The scan skips a match. */
  lemma StripMarkerSkip(s: string, v: nat)
    requires MarkerEnd(s) == Some(v)
    ensures StripMarker(s) == StripMarker(s[v..])
  {
  }

  /** Where no match starts, the scan keeps one character. */
  lemma StripMarkerKeep(s: string)
    requires |s| > 0 && MarkerEnd(s).None?
    ensures StripMarker(s) == [s[0]] + StripMarker(s[1..])
  {
  }

  /** Whether the pattern matches at the start of `x` does not depend on what
      follows `x`, when that begins with `<`. */
  lemma MarkerEndAppend(x: string, t: string)
    requires |x| > 0 && |t| > 0 && t[0] == '<'
    ensures MarkerEnd(x + t) == MarkerEnd(x)
  {
    OpenTagAppend(x, t);
    if OpenTagAt(x) {
      OpenEndAppend(x, t);
      var k := OpenEnd(x);
      CloseTagAppend(x, t, k);
      if CloseTagAt(x, k) {
        CloseEndAppend(x, t, k);
      }
    }
  }

  lemma OpenEndAppend(x: string, t: string)
    requires |x| >= 3 && |t| > 0 && !IsWhitespace(t[0])
    ensures OpenEnd(x + t) == OpenEnd(x)
  {
    assert (x + t)[3..] == x[3..] + t;
    LeadingSpaceStops(x[3..], t);
  }

  lemma CloseEndAppend(x: string, t: string, k: nat)
    requires k + 5 <= |x| && |t| > 0 && !IsWhitespace(t[0])
    ensures CloseEnd(x + t, k) == CloseEnd(x, k)
  {
    assert (x + t)[k + 5..] == x[k + 5..] + t;
    LeadingSpaceStops(x[k + 5..], t);
  }

  lemma OpenTagAppend(x: string, t: string)
    requires |x| > 0 && |t| > 0 && t[0] == '<'
    ensures OpenTagAt(x + t) == OpenTagAt(x)
  {
    assert (x + t)[|x|] == '<';
  }

  lemma CloseTagAppend(x: string, t: string, k: nat)
    requires |t| > 0 && t[0] == '<' && k <= |x|
    ensures CloseTagAt(x + t, k) == CloseTagAt(x, k)
  {
    assert (x + t)[|x|] == '<';
  }

  /** A whitespace run cannot cross a character that is not whitespace. */
  lemma LeadingSpaceStops(a: string, t: string)
    requires |t| > 0 && !IsWhitespace(t[0])
    ensures LeadingSpace(a + t) == LeadingSpace(a)
  {
    var n := LeadingSpace(a);
    assert forall i :: 0 <= i < n ==> (a + t)[i] == a[i];
    assert (a + t)[n] == if n < |a| then a[n] else t[0];
  }

  lemma MarkerMatchesPrefix(w1: string, w2: string, rest: string)
    requires AllWhitespace(w1) && AllWhitespace(w2)
    requires |rest| > 0 ==> !IsWhitespace(rest[0])
    ensures MarkerEnd("<s>" + w1 + "[OUT]" + w2 + rest) == Some(8 + |w1| + |w2|)
  {
    MarkedTextAssoc(w1, w2, rest);
    CloseTagRun(w2, rest);
    MarkerAt("<s>" + (w1 + ("[OUT]" + w2 + rest)), w1, "[OUT]" + w2 + rest, |w2|);
  }

  /** The converse of `MarkerMatchesPrefix`: a match is exactly `<s>`, a
      whitespace run, `[OUT]` and a maximal whitespace run, so nothing but
      marker text is ever removed by the first replacement. */
  lemma MarkerMatchIsMarker(s: string)
    requires MarkerEnd(s).Some?
    ensures var m := MarkerEnd(s).value;
      && (exists w1, w2 :: AllWhitespace(w1) && AllWhitespace(w2) && s[..m] == "<s>" + w1 + "[OUT]" + w2)
      && (m < |s| ==> !IsWhitespace(s[m]))
  {
    var k := OpenEnd(s);
    var m := CloseEnd(s, k);
    var w1, w2 := s[3..k], s[k + 5..m];
    RunIsWhitespace(s, 3, k);
    RunIsWhitespace(s, k + 5, m);
    MarkerSlices(s, k, m);
    assert s[..m] == "<s>" + w1 + "[OUT]" + w2;
  }

  /** The span a `LeadingSpace` count covers is whitespace. */
  lemma RunIsWhitespace(s: string, i: nat, j: nat)
    requires i <= j <= |s| && j == i + LeadingSpace(s[i..])
    ensures AllWhitespace(s[i..j])
  {
    forall k | 0 <= k < j - i ensures IsWhitespace(s[i..j][k]) {
      assert s[i..j][k] == s[i..][k];
    }
  }

  /** A match cut into its four pieces. */
  lemma MarkerSlices(s: string, k: nat, m: nat)
    requires OpenTagAt(s) && k == OpenEnd(s) && CloseTagAt(s, k) && m == CloseEnd(s, k)
    ensures s[..m] == "<s>" + s[3..k] + "[OUT]" + s[k + 5..m]
  {
    assert s[..3] == "<s>";
    assert s[k..k + 5] == "[OUT]";
    assert s[..m] == s[..3] + s[3..k] + s[k..k + 5] + s[k + 5..m];
  }

  lemma MarkedTextAssoc(w1: string, w2: string, rest: string)
    ensures "<s>" + w1 + "[OUT]" + w2 + rest == "<s>" + (w1 + ("[OUT]" + w2 + rest))
  {
  }

  /** The marker match on `<s>` + whitespace + a tail opening with `[OUT]`. */
  lemma MarkerAt(s: string, w1: string, tail: string, n: nat)
    requires s == "<s>" + (w1 + tail)
    requires AllWhitespace(w1) && |tail| >= 5
    requires tail[0] == '[' && tail[1] == 'O' && tail[2] == 'U' && tail[3] == 'T' && tail[4] == ']'
    requires LeadingSpace(tail[5..]) == n
    ensures MarkerEnd(s) == Some(8 + |w1| + n)
  {
    OpenTagRun(w1, tail);
    var k := 3 + |w1|;
    assert s[k..] == tail;
    assert CloseTagAt(s, k);
    assert s[k + 5..] == tail[5..];
    assert CloseEnd(s, k) == 8 + |w1| + n;
  }

  lemma OpenTagRun(w1: string, tail: string)
    requires AllWhitespace(w1) && |tail| > 0 && !IsWhitespace(tail[0])
    ensures OpenTagAt("<s>" + (w1 + tail))
    ensures OpenEnd("<s>" + (w1 + tail)) == 3 + |w1|
  {
    assert ("<s>" + (w1 + tail))[3..] == w1 + tail;
    LeadingSpaceOfRun(w1, tail);
  }

  lemma CloseTagRun(w2: string, rest: string)
    requires AllWhitespace(w2)
    requires |rest| > 0 ==> !IsWhitespace(rest[0])
    ensures ("[OUT]" + w2 + rest)[5..] == w2 + rest
    ensures LeadingSpace(("[OUT]" + w2 + rest)[5..]) == |w2|
  {
    assert ("[OUT]" + w2 + rest)[5..] == w2 + rest;
    LeadingSpaceOfRun(w2, rest);
  }

  // ---------------------------------------------------------------------
  // The literal `s<out>`
  // ---------------------------------------------------------------------

  /** Every `s<out>` that the scan reaches is removed: the text before it is
      processed as on its own, and the text after it as on its own. */
  lemma SOutRemovedAnywhere(x: string, rest: string)
    ensures StripSOut(x + ("s<out>" + rest)) == StripSOut(x) + StripSOut(rest)
  {
    var t := "s<out>" + rest;
    assert t[0] == 's';
    StripSOutAppend(x, t);
    assert StartsWithSOut(t);
    assert t[6..] == rest;
  }

  /** No occurrence of `s<out>` straddles an `s`, since `s` appears in it only
      first. */
  lemma {:induction false} StripSOutAppend(x: string, t: string)
    requires |t| > 0 && t[0] == 's'
    ensures StripSOut(x + t) == StripSOut(x) + StripSOut(t)
    decreases |x|
  {
    if |x| == 0 {
      assert x + t == t;
    } else {
      var s := x + t;
      assert s[|x|] == 's';
      assert StartsWithSOut(s) == StartsWithSOut(x);
      if StartsWithSOut(x) {
        assert s[6..] == x[6..] + t;
        StripSOutAppend(x[6..], t);
      } else {
        assert s[1..] == x[1..] + t;
        StripSOutAppend(x[1..], t);
        assert [x[0]] + (StripSOut(x[1..]) + StripSOut(t))
            == [x[0]] + StripSOut(x[1..]) + StripSOut(t);
      }
    }
  }

  // ---------------------------------------------------------------------
  // Facts about literal text
  // ---------------------------------------------------------------------

  lemma NoAngleLiteral(s: string)
    requires '<' !in s
    ensures NoAngle(s)
  {
    forall i | 0 <= i < |s| ensures s[i] != '<' { assert s[i] in s; }
  }

  lemma ClassFreeLiteral(s: string)
    requires '/' !in s && 'O' !in s && 'U' !in s && 'T' !in s
    ensures ClassFree(s)
  {
    forall i | 0 <= i < |s| ensures !InClass(s[i]) { assert s[i] in s; }
  }

  /** Stage 1 leaves `s` alone when no `<` in it is followed by `s`. */
  lemma {:induction false} StripMarkerFixes(s: string)
    requires forall i :: 0 <= i < |s| - 1 ==> s[i] == '<' ==> s[i + 1] != 's'
    ensures StripMarker(s) == s
    decreases |s|
  {
    if |s| > 0 {
      assert MarkerEnd(s) == None;
      StripMarkerFixes(s[1..]);
      assert [s[0]] + s[1..] == s;
    }
  }
}

=== FILE: server.dfy ===
/** The four HTTP handlers of the backend, as functions from the store and the
    request to the new store and the response. The document store is an
    in-memory pair of collections; whether a store call throws is a parameter. */
module Server {
  import opened Optional
  import opened Text
  import opened Records
  import opened Replies
  import Sanitizer
  import SanitizerLaws

  /** Whether the document store's call goes through or throws. */
  datatype Db = Up | Down

  /** The two collections: students and saved chats. */
  datatype Store = Store(students: seq<Student>, chats: seq<Chat>)

  /** The `error` value of a failure body. */
  datatype ErrorInfo =
    | ValidationFailed(paths: seq<Field>)    // a schema validation error naming the failing paths
    | CastFailed                             // a value that does not cast to its schema type
    | StoreFailed                            // the store call threw
    | Text(message: string)                  // a fixed message

  /** The JSON bodies the handlers send. */
  datatype Body =
    | StudentBody(student: Option<Student>)  // {success: true, student}
    | ErrorBody(error: ErrorInfo)            // {success: false, error}
    | ReplyBody(response: string)            // {response}
    | SavedBody                              // {success: true}
  {
    /** The body's `success` field, if it has one. */
    function Success(): Option<bool> {
      match this
      case StudentBody(_) => Some(true)
      case ErrorBody(_) => Some(false)
      case ReplyBody(_) => None
      case SavedBody => Some(true)
    }
  }

  datatype Response = Response(status: nat, body: Body)

  /** A handler's effect: the store afterwards and the response sent. */
  datatype Handled = Handled(store: Store, response: Response)

  /** What the completion call returned: it threw, or it answered with the
      first choice's message content, which may be missing. */
  datatype Upstream = GatewayFailed | Completed(content: Option<string>)

  const NotFoundMessage: string := "Student not found"

  /** Student ids are allocated in order, so each student's id is its
      position. This stands in for the store's unique ObjectId allocation. */
  predicate IdsAreIndices(st: Store) {
    forall i :: 0 <= i < |st.students| ==> st.students[i].id == i
  }

  // ---------------------------------------------------------------------
  // POST /api/students/register
  // ---------------------------------------------------------------------

  /** Builds the document from the body, validates it, saves it. A valid
      body against a working store adds exactly one student carrying the
      submitted fields, dated with the submitted date or else `now`, and
      answers 201 with it; anything else answers 400 with `success: false`
      and changes nothing. */
  function RegisterStudent(st: Store, form: StudentForm, db: Db, now: Timestamp): (h: Handled)
    ensures h.response.status == 201 <==> IsValid(form) && db.Up?
    ensures h.response.status != 201 ==> h.response.status == 400 && h.store == st
    ensures h.response.body.Success() == Some(h.response.status == 201)
    ensures !IsValid(form) ==> h.response.body.ErrorBody? && h.response.body.error == ValidationFailed(FailedPaths(form))
    ensures h.response.status == 201 ==>
      && h.response.body.StudentBody?
      && h.response.body.student.Some?
      && h.store.students == st.students + [h.response.body.student.value]
      && h.response.body.student.value.id == |st.students|
      && Some(h.response.body.student.value.name) == form.name
      && Some(h.response.body.student.value.schoolClass) == form.schoolClass
      && Some(h.response.body.student.value.interests) == form.interests
      && Some(h.response.body.student.value.location) == form.location
      && (form.createdAt.At? ==> h.response.body.student.value.createdAt == form.createdAt.time)
      && (form.createdAt.NoDate? ==> h.response.body.student.value.createdAt == now)
    ensures h.store.chats == st.chats
  {
    var failed := FailedPaths(form);
    if failed != [] then
      Handled(st, Response(400, ErrorBody(ValidationFailed(failed))))
    else if db.Down? then
      Handled(st, Response(400, ErrorBody(StoreFailed)))
    else
      var s := NewStudent(form, |st.students|, now);
      Handled(st.(students := st.students + [s]), Response(201, StudentBody(Some(s))))
  }

  // ---------------------------------------------------------------------
  // GET /api/students/:id
  // ---------------------------------------------------------------------

  /** The first student with the given id, or `None` (the store's `null`). */
  function Find(students: seq<Student>, id: StudentId): (r: Option<Student>)
    ensures r.Some? ==> r.value in students && r.value.id == id
    ensures r.None? ==> forall i :: 0 <= i < |students| ==> students[i].id != id
    decreases |students|
  {
    if |students| == 0 then None
    else if students[0].id == id then Some(students[0])
    else Find(students[1..], id)
  }

  /** `id` is `None` when the path segment does not cast to an id. A cast
      failure or a store fault answers 404; a well-formed id answers 200
      with whatever the lookup found, `null` included. */
  function GetStudent(st: Store, id: Option<StudentId>, db: Db): (r: Response)
    ensures r.status == 404 <==> id.None? || db.Down?
    ensures r.status == 404 ==> r.body == ErrorBody(Text(NotFoundMessage))
    ensures r.status != 404 ==> r.status == 200 && r.body.StudentBody?
    ensures r.status == 200 && r.body.student.Some? ==>
      r.body.student.value in st.students && r.body.student.value.id == id.value
    ensures r.status == 200 && r.body.student.None? ==>
      forall i :: 0 <= i < |st.students| ==> st.students[i].id != id.value
  {
    if id.None? || db.Down? then Response(404, ErrorBody(Text(NotFoundMessage)))
    else Response(200, StudentBody(Find(st.students, id.value)))
  }

  // ---------------------------------------------------------------------
  // POST /api/chat
  // ---------------------------------------------------------------------

  /** Reading `studentData.name` for the prompt throws when the body has no
      `studentData`; that, or a failed completion call, answers 500 with the
      fixed apology and no `success` field. Otherwise the sanitised content
      is answered with 200. The store is not touched and nothing is retried. */
  function ChatReply(req: ChatRequest, upstream: Upstream): (r: Response)
    ensures r.status == 200 <==> req.studentData.Some? && upstream.Completed?
    ensures r.status != 200 ==> r == Response(500, ReplyBody(TroubleReply))
    ensures r.body.ReplyBody? && r.body.Success() == None
  {
    if req.studentData.None? then Response(500, ReplyBody(TroubleReply))
    else match upstream
      case GatewayFailed => Response(500, ReplyBody(TroubleReply))
      case Completed(content) => Response(200, ReplyBody(Sanitizer.Sanitize(content)))
  }

  // ---------------------------------------------------------------------
  // POST /api/chat/save
  // ---------------------------------------------------------------------

  /** The weak student reference a Chat document keeps. */
  function ChatStudentRef(ref: IdRef): Option<StudentId>
    requires !ref.Malformed?
  {
    if ref.Ref? then Some(ref.id) else None
  }

  /** The transcript a Chat document keeps: a missing array is stored empty. */
  function StoredTurns(messages: MessageList): seq<Message>
    requires !messages.Uncastable?
  {
    if messages.Turns? then messages.turns else []
  }

  /** Always creates a new Chat document holding the whole transcript; an
      existing one is never updated. A `studentId` or `messages` value that
      does not cast, or a store fault, answers 400 and changes nothing. */
  function SaveChat(st: Store, req: SaveRequest, db: Db): (h: Handled)
    ensures h.response.status == 200 <==> !req.studentId.Malformed? && !req.messages.Uncastable? && db.Up?
    ensures h.response.status != 200 ==> h.response.status == 400 && h.store == st
    ensures h.response.body.Success() == Some(h.response.status == 200)
    ensures h.store.students == st.students
    ensures h.response.status == 200 ==>
      && |h.store.chats| == |st.chats| + 1
      && h.store.chats[..|st.chats|] == st.chats
      && (req.messages.Turns? ==> h.store.chats[|st.chats|].messages == req.messages.turns)
      && (req.messages.NoMessages? ==> h.store.chats[|st.chats|].messages == [])
      && (req.studentId.Ref? ==> h.store.chats[|st.chats|].studentId == Some(req.studentId.id))
      && (req.studentId.NoId? ==> h.store.chats[|st.chats|].studentId == None)
  {
    if req.studentId.Malformed? || req.messages.Uncastable? then
      Handled(st, Response(400, ErrorBody(CastFailed)))
    else if db.Down? then
      Handled(st, Response(400, ErrorBody(StoreFailed)))
    else
      var chat := Chat(ChatStudentRef(req.studentId), StoredTurns(req.messages));
      Handled(st.(chats := st.chats + [chat]), Response(200, SavedBody))
  }

  // ---------------------------------------------------------------------
  // Properties across handlers
  // ---------------------------------------------------------------------

  /** Registration and saving keep every student's id equal to its position. */
  lemma HandlersKeepIds(st: Store, form: StudentForm, req: SaveRequest, db: Db, now: Timestamp)
    requires IdsAreIndices(st)
    ensures IdsAreIndices(RegisterStudent(st, form, db, now).store)
    ensures IdsAreIndices(SaveChat(st, req, db).store)
  {
  }

  /** A newly registered student's id is not taken by any earlier student. */
  lemma RegisterAssignsFreshId(st: Store, form: StudentForm, now: Timestamp)
    requires IdsAreIndices(st)
    requires IsValid(form)
    ensures var s := RegisterStudent(st, form, Up, now).response.body.student.value;
      forall i :: 0 <= i < |st.students| ==> st.students[i].id != s.id
  {
  }

  /** Under the id invariant, a lookup returns exactly the student at that
      position, and `null` past the end. */
  lemma FindByPosition(st: Store, id: StudentId)
    requires IdsAreIndices(st)
    ensures id < |st.students| ==> Find(st.students, id) == Some(st.students[id])
    ensures id >= |st.students| ==> Find(st.students, id) == None
  {
    var r := Find(st.students, id);
    if id < |st.students| {
      assert st.students[id].id == id;
      var j :| 0 <= j < |st.students| && st.students[j] == r.value;
    }
  }

  /** Whatever registration answered with, looking it up by its id returns
      it unchanged. */
  lemma RegisterThenLookup(st: Store, form: StudentForm, now: Timestamp)
    requires IdsAreIndices(st)
    requires IsValid(form)
    ensures var h := RegisterStudent(st, form, Up, now);
      var s := h.response.body.student.value;
      GetStudent(h.store, Some(s.id), Up) == Response(200, StudentBody(Some(s)))
  {
    var h := RegisterStudent(st, form, Up, now);
    HandlersKeepIds(st, form, SaveRequest(NoId, NoMessages), Up, now);
    FindByPosition(h.store, |st.students|);
  }

  /** Saving a transcript and then a longer one keeps both as separate
      documents, in order, after everything saved before. */
  lemma SavesAccumulate(st: Store, id: StudentId, first: seq<Message>, second: seq<Message>)
    ensures var h1 := SaveChat(st, SaveRequest(Ref(id), Turns(first)), Up);
      var h2 := SaveChat(h1.store, SaveRequest(Ref(id), Turns(second)), Up);
      h2.store.chats == st.chats + [Chat(Some(id), first), Chat(Some(id), second)]
  {
    var h1 := SaveChat(st, SaveRequest(Ref(id), Turns(first)), Up);
    assert h1.store.chats == st.chats + [Chat(Some(id), first)];
  }

  /** A successful chat answer is a deletion-only image of the model's reply
      (or of the fallback), with no `/`, `O`, `U`, `T` and no edge whitespace. */
  lemma ChatReplyShape(req: ChatRequest, content: Option<string>)
    requires req.studentData.Some?
    ensures var text := ChatReply(req, Completed(content)).body.response;
      && Sanitizer.ClassFree(text)
      && (|text| > 0 ==> !IsWhitespace(text[0]) && !IsWhitespace(text[|text| - 1]))
      && IsSubsequence(text, Sanitizer.ChooseReply(content))
      && (content.None? || content.value == [] ==> text == NoContentReply)
  {
    var chosen := Sanitizer.ChooseReply(content);
    ChatReplyIsSanitized(req, content);
    SanitizerLaws.CleanShape(chosen);
    SanitizerLaws.CleanDeletes(chosen);
    if content.None? || content.value == [] {
      SanitizerLaws.NoContentYieldsFallback(content);
    }
  }

  lemma ChatReplyIsSanitized(req: ChatRequest, content: Option<string>)
    requires req.studentData.Some?
    ensures ChatReply(req, Completed(content)).body.response == Sanitizer.Clean(Sanitizer.ChooseReply(content))
  {
  }
}

=== FILE: text.dfy ===
/** Character-level vocabulary shared by the reply sanitiser and the client:
    the ECMAScript whitespace set, `String.prototype.trim`, and the
    subsequence order used to say "this step only deletes characters". */
module Text {

  /** ECMAScript WhiteSpace and LineTerminator code points. This one set is
      both what the regular-expression class `\s` matches and what `trim`
      removes. */
  predicate IsWhitespace(c: char) {
    || ('\t' <= c <= '\r')  // tab, line feed, vertical tab, form feed, carriage return
    || c == ' ' || c == '\U{00A0}' || c == '\U{1680}'
    || ('\U{2000}' <= c <= '\U{200A}')
    || ('\U{2028}' <= c <= '\U{2029}')
    || c == '\U{202F}' || c == '\U{205F}' || c == '\U{3000}' || c == '\U{FEFF}'
  }

  predicate AllWhitespace(s: string) {
    forall i :: 0 <= i < |s| ==> IsWhitespace(s[i])
  }

  /** Length of the maximal whitespace run at the start of `s`. */
  function LeadingSpace(s: string): (n: nat)
    ensures n <= |s|
    ensures forall i :: 0 <= i < n ==> IsWhitespace(s[i])
    ensures n < |s| ==> !IsWhitespace(s[n])
    decreases |s|
  {
    if |s| > 0 && IsWhitespace(s[0]) then 1 + LeadingSpace(s[1..]) else 0
  }

  /** Index where the maximal whitespace run at the end of `s` begins. */
  function TrailingSpace(s: string): (n: nat)
    ensures n <= |s|
    ensures forall i :: n <= i < |s| ==> IsWhitespace(s[i])
    ensures n > 0 ==> !IsWhitespace(s[n - 1])
    decreases |s|
  {
    if |s| > 0 && IsWhitespace(s[|s| - 1]) then TrailingSpace(s[..|s| - 1]) else |s|
  }

  /** Where `trim` starts cutting: after the leading run. */
  function TrimFrom(s: string): (i: nat)
    ensures i <= |s|
  {
    LeadingSpace(s)
  }

  /** Where `trim` stops: the trailing run of what the leading cut left. */
  function TrimTo(s: string): (j: nat)
    ensures TrimFrom(s) <= j <= |s|
    ensures forall k :: j <= k < |s| ==> IsWhitespace(s[k])
    ensures TrimFrom(s) < j ==> !IsWhitespace(s[j - 1])
  {
    var i := TrimFrom(s);
    TrailingSpaceOfSuffix(s, i);
    i + TrailingSpace(s[i..])
  }

  /** The trailing run of a suffix, read back in the positions of `s`. */
  lemma TrailingSpaceOfSuffix(s: string, i: nat)
    requires i <= |s|
    ensures forall k :: i + TrailingSpace(s[i..]) <= k < |s| ==> IsWhitespace(s[k])
    ensures TrailingSpace(s[i..]) > 0 ==> !IsWhitespace(s[i + TrailingSpace(s[i..]) - 1])
  {
    var a := s[i..];
    var n := TrailingSpace(a);
    forall k | i + n <= k < |s|
      ensures IsWhitespace(s[k])
    {
      assert a[k - i] == s[k];
    }
    if n > 0 {
      assert a[n - 1] == s[i + n - 1];
    }
  }

  /** `String.prototype.trim`: the leading whitespace run is removed, then the
      trailing one of what is left. */
  function Trim(s: string): (r: string)
    ensures |r| <= |s|
    ensures |r| > 0 ==> !IsWhitespace(r[0]) && !IsWhitespace(r[|r| - 1])
    ensures exists i, j :: 0 <= i <= j <= |s| && r == s[i..j] && AllWhitespace(s[..i]) && AllWhitespace(s[j..])
  {
    TrimCutsWhitespace(s);
    s[TrimFrom(s)..TrimTo(s)]
  }

  /** What `trim` cuts off at either end is whitespace. */
  lemma TrimCutsWhitespace(s: string)
    ensures AllWhitespace(s[..TrimFrom(s)]) && AllWhitespace(s[TrimTo(s)..])
  {
    var i, j := TrimFrom(s), TrimTo(s);
    forall k | 0 <= k < i ensures IsWhitespace(s[..i][k]) {
      assert s[..i][k] == s[k];
    }
    forall k | 0 <= k < |s| - j ensures IsWhitespace(s[j..][k]) {
      assert s[j..][k] == s[j + k];
    }
  }

  /** `a` can be obtained from `b` by deleting characters. */
  predicate IsSubsequence(a: string, b: string)
    decreases |b|
  {
    if |a| == 0 then true
    else if |b| == 0 then false
    else (a[0] == b[0] && IsSubsequence(a[1..], b[1..])) || IsSubsequence(a, b[1..])
  }

  lemma {:induction false} SubsequenceLength(a: string, b: string)
    requires IsSubsequence(a, b)
    ensures |a| <= |b|
    decreases |b|
  {
    if |a| > 0 {
      if a[0] == b[0] && IsSubsequence(a[1..], b[1..]) {
        SubsequenceLength(a[1..], b[1..]);
      } else {
        SubsequenceLength(a, b[1..]);
      }
    }
  }

  lemma {:induction false} SubsequenceReflexive(s: string)
    ensures IsSubsequence(s, s)
    decreases |s|
  {
    if |s| > 0 {
      SubsequenceReflexive(s[1..]);
    }
  }

  lemma {:induction false} SubsequenceTransitive(a: string, b: string, c: string)
    requires IsSubsequence(a, b) && IsSubsequence(b, c)
    ensures IsSubsequence(a, c)
    decreases |c|
  {
    if |a| > 0 {
      SubsequenceLength(a, b);
      SubsequenceLength(b, c);
      if IsSubsequence(b, c[1..]) {
        SubsequenceTransitive(a, b, c[1..]);
      } else if a[0] == b[0] && IsSubsequence(a[1..], b[1..]) {
        SubsequenceTransitive(a[1..], b[1..], c[1..]);
      } else {
        SubsequenceTransitive(a, b[1..], c[1..]);
      }
    }
  }

  /** Keeping the first character and deleting from the rest. */
  lemma SubsequenceCons(x: char, a: string, b: string)
    requires IsSubsequence(a, b)
    ensures IsSubsequence([x] + a, [x] + b)
  {
    assert ([x] + a)[1..] == a;
    assert ([x] + b)[1..] == b;
  }

  /** Deleting a prefix only deletes characters. */
  lemma {:induction false} SuffixIsSubsequence(s: string, k: nat)
    requires k <= |s|
    ensures IsSubsequence(s[k..], s)
    decreases k
  {
    if k == 0 {
      SubsequenceReflexive(s);
    } else {
      SuffixIsSubsequence(s[1..], k - 1);
      assert s[1..][k - 1..] == s[k..];
      if |s[k..]| > 0 {
        assert IsSubsequence(s[k..], s[1..]);
      }
    }
  }

  /** Deleting a suffix only deletes characters. */
  lemma {:induction false} PrefixIsSubsequence(s: string, k: nat)
    requires k <= |s|
    ensures IsSubsequence(s[..k], s)
    decreases k
  {
    if k > 0 {
      PrefixIsSubsequence(s[1..], k - 1);
      assert s[1..][..k - 1] == s[..k][1..];
      assert s[..k][0] == s[0];
    }
  }

  lemma SuffixKeepsSubsequence(a: string, s: string, k: nat)
    requires k <= |s| && IsSubsequence(a, s[k..])
    ensures IsSubsequence(a, s)
  {
    SuffixIsSubsequence(s, k);
    SubsequenceTransitive(a, s[k..], s);
  }

  lemma SliceIsSubsequence(s: string, i: nat, j: nat)
    requires i <= j <= |s|
    ensures IsSubsequence(s[i..j], s)
  {
    PrefixIsSubsequence(s[i..], j - i);
    assert s[i..][..j - i] == s[i..j];
    SuffixIsSubsequence(s, i);
    SubsequenceTransitive(s[i..j], s[i..], s);
  }

  lemma TrimIsSubsequence(s: string)
    ensures IsSubsequence(Trim(s), s)
  {
    SliceIsSubsequence(s, TrimFrom(s), TrimTo(s));
  }

  /** `trim` empties a string exactly when every character is whitespace;
      this is the client's "blank message" test. */
  lemma TrimEmptyIffAllWhitespace(s: string)
    ensures Trim(s) == [] <==> AllWhitespace(s)
  {
    if Trim(s) == [] {
      // the trailing run then starts where the leading run ends, so together
      // they cover the whole string
      assert TrimFrom(s) == TrimTo(s);
    } else {
      assert Trim(s)[0] == s[TrimFrom(s)];
    }
  }

  /** `trim` is the identity on a string with no whitespace at either end. */
  lemma TrimIdentity(s: string)
    requires |s| > 0 ==> !IsWhitespace(s[0]) && !IsWhitespace(s[|s| - 1])
    ensures Trim(s) == s
  {
    assert TrimFrom(s) == 0;
    assert s[0..] == s;
    assert TrailingSpace(s) == |s|;
  }

  /** `trim` is idempotent. */
  lemma TrimIdempotent(s: string)
    ensures Trim(Trim(s)) == Trim(s)
  {
    TrimIdentity(Trim(s));
  }
}
